=== FILE: README.md ===
# Personal assistant: contacts, notes and the command layer

This project models the core of a command-line personal assistant written in Python:

- an address book of contacts, each with a name, an ordered list of phones, and at most one birthday, email and address;
- a notebook of titled notes with tags and ISO timestamps;
- the command handlers that turn the words typed after a command name into a reply;
- the two input parsers and error decorators;
- the phone and email validators;
- the command-name table with its help lines.

Both collections are Python dicts, so they are modelled as insertion-ordered sequences of `(key, value)` pairs (module `Store`). `Put` replaces a value in place or appends a new key, `Remove` drops the first entry with the key, and `Get` reads the first entry with the key. Every mutating method of the Python classes becomes a pure function that returns the updated value. A raised exception becomes a `Failure` of the `Result` type in `Wrappers`, carrying an `Errors.Exc`; the `input_error` decorators turn that failure into reply text.

Some things come in as parameters:

- The wall clock is `now` (the `isoformat()` text a note is stamped with).
- `datetime.today()` is `today`.
- The card printer `format_contact` is the parameter `render`. Its module is not part of this model.
- `shlex.split` is the parameter `tokenize`, which returns `None` where `shlex` raises.

Files, one module each:

- `wrappers.dfy`: `Option`, `Result`, `Exc`.
- `text.dfy`: the `str` methods the core uses: `split`, `strip`, `lower`, `in`, `join`, `int()`, `%02d` padding.
- `dates.dfy`: proleptic Gregorian dates, ordinals, `replace(year=…)`, `DD.MM.YYYY`.
- `store.dfy`: the insertion-ordered dict.
- `contact_fields.dfy`, `record.dfy`, `address_book.dfy`, `contact_commands.dfy`: contacts.
- `note.dfy`, `notebook.dfy`, `note_commands.dfy`: notes.
- `core.dfy` and `validators.dfy`: the two helper modules.
- `commands_enum.dfy`: the command enums and the help table.

Where the source cannot run as written, the model takes the evident intent, and each such point is listed under "## Left out":

- `Phone.set` does not exist.
- `Birthday` stores the raw text, but the code elsewhere treats it as a date.
- `AddressBook.delete` does not exist.
- The enum members `SEARCH` and `DELETE` are missing.

## Model

| member | source | states |
|---|---|---|
| ContactFields.ParseBirthday | assistant/contacts/fields.py:22-24 | a birthday reads exactly from a valid `DD.MM.YYYY` text and writes back to that same text; any other text is the `ValueError` "Invalid date format. Use DD.MM.YYYY" |
| ContactFields.ParseOfFormatBirthday | assistant/contacts/record.py:93 | writing a birthday with `%d.%m.%Y` and reading it back gives the same birthday |
| Dates.ReplaceYear | assistant/contacts/record.py:52-55 | `replace(year=y)` fails exactly for 29 February in a common year, and otherwise keeps the month and day |
| Dates.Parse | assistant/contacts/fields.py:22-24 | only text of the fixed `DD.MM.YYYY` shape reads as a date, and its year fits in four digits |
| Dates.ParseOfFormat | assistant/contacts/record.py:93 | formatting a date with a four-digit year and parsing it gives the date back |
| Dates.FormatOfParse | assistant/contacts/record.py:105-107 | a date read from a text formats back to exactly that text |
| Dates.OrdinalOrder | assistant/contacts/record.py:56 | comparing dates (`<`) agrees with comparing their day ordinals, and equal ordinals mean equal dates |
| Dates.DaysBeforeYearIsClosed | assistant/contacts/record.py:64 | the days before a year, counted year by year, equal the leap-year closed form behind the ordinals that `date` subtraction compares |
| Text.ParseInt | assistant/contacts/commands.py:109 | `int()` succeeds exactly when the stripped text is an optional sign followed by one or more digits, and gives the value of the digits, negated after `-` |
| Text.ParseIntRejectsNonDigit | assistant/contacts/commands.py:109 | a non-digit anywhere in the stripped text other than a leading sign makes `int()` fail, as for `abc` or `1.5` |
| Text.LeadingZeroValue | assistant/contacts/commands.py:109 | a leading zero does not change the value of a numeral |
| Text.ParseIntOfNatToString | assistant/contacts/commands.py:109 | `int()` reads back every decimal numeral, signed or not |
| Text.Strip | assistant/validators/fields.py:36 | the stripped text is empty exactly when the input is all whitespace, and otherwise starts and ends with a non-space |
| Text.StripIsSlice | assistant/validators/fields.py:36 | the stripped text is a slice of the input with only whitespace cut off before and after it |
| Text.Words | assistant/core.py:56 | every word `split()` yields is non-empty and free of whitespace |
| Text.WordsOfJoin | assistant/contacts/commands.py:147 | splitting words joined by single spaces gives the words back |
| Text.WordsOfStrip | assistant/validators/fields.py:42 | stripping the line first does not change how `split()` cuts it |
| Store.Get | assistant/contacts/address_book.py:25-27 | a dict lookup misses exactly when the key is absent, and otherwise returns the value stored under the key |
| Store.Put | assistant/contacts/address_book.py:21-23 | assigning a key stores the value under it, leaves every other key's value alone, and keeps the key order |
| Store.Remove | assistant/notes/notebook.py:72 | `del` drops the first entry under the key, keeps the entries before it in place and the later ones in order, shortens the dict by one, and leaves every other key's value alone |
| Store.SelectStep | assistant/notes/notebook.py:86-89 | a filtered comprehension over one more entry gains that entry's value at the end exactly when it passes the filter |
| Store.Collect | assistant/contacts/address_book.py:54-76 | a dict built by assigning the kept items in order has exactly the kept keys, each holding the value of the last kept item with that key |
| Store.CollectStep | assistant/contacts/address_book.py:75-76 | one more assignment, or one more skipped item, keeps the dict equal to the comprehension over the longer item list |
| Store.CountIsKeyCount | assistant/notes/notebook.py:103-105 | entries never number fewer than the distinct keys, and with no repeated key (as in a dict) exactly as many |
| Records.NewRecord | assistant/contacts/record.py:14-19 | a new record has the given name, no phones and no birthday, email or address |
| Records.AddPhone | assistant/contacts/record.py:21-22 | `add_phone` appends one phone with the given value, keeping the earlier phones and every other field |
| Records.FindPhone | assistant/contacts/record.py:38-42 | `find_phone` finds the first phone with an equal value, or reports that no phone has that value |
| Records.RemovePhone | assistant/contacts/record.py:24-29 | `remove_phone` drops the first matching phone, keeping the order of the rest, and raises "Phone number … not found" exactly when no phone matches |
| Records.EditPhone | assistant/contacts/record.py:31-36 | `edit_phone` gives the first matching phone the new value in place and touches nothing else; it raises exactly when no phone matches |
| Records.AddBirthday | assistant/contacts/record.py:44-45 | `add_birthday` fills the birthday slot with the parsed date, which writes back to the given text, and fails exactly for unreadable text |
| Records.AddEmail | assistant/contacts/record.py:66-68 | `add_email` overwrites only the email slot |
| Records.AddAddress | assistant/contacts/record.py:70-72 | `add_address` overwrites only the address slot |
| Records.OccurrenceIn | assistant/contacts/record.py:52-55 | the birthday's occurrence in a given year falls in that year on the birthday's month and day, with 28 February standing in for 29 February in a common year |
| Records.NextBirthday | assistant/contacts/record.py:51-62 | the next birthday falls on the birthday's month and day (28 February for 29 February in a common year), is not before today, falls in this year or the next, and is the earliest occurrence that is not before today |
| Records.OccurrenceShift | assistant/contacts/record.py:56-62 | from one year to the next, the occurrence's day of the year moves by at most one day: up to one day later after a common year, up to one day earlier after a leap year |
| Records.NextBirthdayWithinAYear | assistant/contacts/record.py:47-64 | the next birthday is between 0 and 365 days away |
| Records.DaysToBirthday | assistant/contacts/record.py:47-64 | `days_to_birthday` is `None` exactly without a birthday, and otherwise is the 0 to 365 day count to the next occurrence |
| Records.FromDict | assistant/contacts/record.py:98-114 | `from_dict` takes `name` (or the legacy `Name`) and the phones in order, and sets each optional field exactly when its value is present and non-empty; an unreadable birthday raises |
| Records.FromDictOfToDict | assistant/contacts/record.py:89-114 | reading back a written record gives the record, except that an empty email or address reads back as unset |
| AddressBook.AddRecord | assistant/contacts/address_book.py:21-23 | `add_record` files the record under its name, replaces any record there, leaves every other name alone, and keeps names unique and matching their records |
| AddressBook.Find | assistant/contacts/address_book.py:25-27 | `find` returns the record under exactly that name, and `None` exactly when no record is filed under it |
| AddressBook.Delete | assistant/contacts/commands.py:165-168 | deletion reports whether the name was present, removes its entry keeping the other entries in order, and leaves every other name alone |
| AddressBook.FromDict | assistant/contacts/address_book.py:33-34 | `from_dict` reads each entry under its own key, and fails exactly when some entry cannot be read |
| AddressBook.FromDictOfToDict | assistant/contacts/address_book.py:30-34 | reading back a written book gives the same keys in order, each record round-tripped |
| AddressBook.ParseAll | assistant/contacts/address_book.py:39-40 | reading the list items in order gives one record per item with the item's name, and fails exactly when some item cannot be read |
| AddressBook.FromList | assistant/contacts/address_book.py:36-41 | `from_list` files every item's name; each name holds the record of its last item, and names stay unique and match their records |
| AddressBook.FileAll | assistant/contacts/address_book.py:39-41 | filing records one after another gives the dict comprehension of the records keyed by name, a later record replacing an earlier one |
| AddressBook.FromListFacts | assistant/contacts/address_book.py:36-41 | filing the parsed items puts every item's name in the book, each holding its last item's record |
| AddressBook.UpcomingAgreesWithRecord | assistant/contacts/address_book.py:62-74 | the next-birthday computation repeated in `get_upcoming_birthdays` gives the same date and delta as `days_to_birthday` |
| AddressBook.UpcomingStepShape | assistant/contacts/address_book.py:57-76 | one pass of the loop files a record's name and next date exactly when its birthday falls within the window |
| AddressBook.Upcoming | assistant/contacts/address_book.py:54-78 | the loop builds the dict comprehension of the listed records' names and next dates over the records in book order, a later record with the same name winning |
| AddressBook.UpcomingMeaning | assistant/contacts/address_book.py:54-78 | that comprehension holds every name of a record whose birthday is within the window, and each name maps to the next date of the last such record with that name |
| AddressBook.EffectiveWindow | assistant/contacts/address_book.py:49-52 | no window means 7 days and a negative window means 0 |
| AddressBook.GetUpcomingBirthdays | assistant/contacts/address_book.py:43-78 | the result lists exactly the names of the records whose next birthday is 0 to window days away, with that date as `DD.MM.YYYY`, once per name |
| AddressBook.ListedNamesAreKeys | assistant/contacts/address_book.py:56-76 | in a book whose records sit under their names, every listed name is a key of the book |
| AddressBook.UpcomingMonotone | assistant/contacts/address_book.py:75 | widening the window never drops a name |
| AddressBook.BirthdayTodayIsListed | assistant/contacts/address_book.py:75 | a birthday on today's month and day is listed even for a 0-day window |
| ContactCommands.FindOrNew | assistant/contacts/commands.py:33-36 | for a filed name the result is the record stored under it in the book; otherwise it is a fresh record with that name and no phones |
| ContactCommands.AddContact | assistant/contacts/commands.py:27-41 | `add` needs a 10-digit phone; it appends the phone to the existing or new contact, says "created" or "updated" by prior presence, and leaves every other contact alone; an existing contact keeps its place in the book and a new one is appended at the end |
| ContactCommands.ChangeContact | assistant/contacts/commands.py:44-54 | `change` needs exactly three words and reports an unknown contact or phone without changes; otherwise it edits only that contact, in place |
| ContactCommands.ShowOne | assistant/contacts/commands.py:57-67 | a one-name lookup command replies with usage, "Contact not found.", or the chosen card view of the record |
| ContactCommands.ShowPhone | assistant/contacts/commands.py:57-67 | `phone` shows the phones-only card of the named contact, or usage or not found |
| ContactCommands.ShowBirthday | assistant/contacts/commands.py:93-103 | `show-birthday` shows the birthday-only card of the named contact, or usage or not found |
| ContactCommands.ShowAll | assistant/contacts/commands.py:70-76 | `all` is the empty-list message, or one full card per contact in book order, separated by blank lines |
| ContactCommands.AddBirthdayCmd | assistant/contacts/commands.py:79-90 | `add-birthday` files a new contact before reading the date, so a bad date leaves the contact and reports the format error; a good date sets only that contact's birthday; either way an existing contact keeps its place and a new one is appended at the end |
| ContactCommands.AddEmailCmd | assistant/contacts/commands.py:127-138 | `add-email` sets the email of the existing or new contact without checking it, leaving every other contact alone; an existing contact keeps its place and a new one is appended at the end |
| ContactCommands.AddAddressCmd | assistant/contacts/commands.py:141-153 | `add-address` stores every word after the name, joined by spaces, as the contact's address, leaving every other contact alone; an existing contact keeps its place and a new one is appended at the end |
| ContactCommands.AddressWordsKept | assistant/contacts/commands.py:146-152 | an address typed as separate words splits back into those words |
| ContactCommands.DeleteContact | assistant/contacts/commands.py:156-168 | `delete-contact` removes exactly the named contact when it is present, keeping the other contacts in order, and otherwise reports not found; every other contact stays |
| ContactCommands.UpcomingCards | assistant/contacts/commands.py:116-123 | there is one card per listed entry, in listing order |
| ContactCommands.BirthdaysCmd | assistant/contacts/commands.py:106-124 | `birthdays` reads the window (default 7, negative as 0) or replies with `int()`'s error; it lists the upcoming birthdays, or says none fall within the window |
| ContactCommands.UpcomingCardsUseRecords | assistant/contacts/commands.py:117-123 | with records under their own names, every listed name has a record, so the `name: date` fallback never appears |
| ContactCommands.Matching | assistant/contacts/commands.py:180-193 | the matches are exactly the contacts whose name, some phone, email or address contains the lowered query, ignoring case |
| ContactCommands.MatchingIsSelect | assistant/contacts/commands.py:182-193 | each matching contact appears once, in book order |
| ContactCommands.SearchContacts | assistant/contacts/commands.py:170-198 | `search-contacts` needs a query; it shows the matching cards, or says nothing matched the stripped query |
| ContactCommands.FoundByNamePiece | assistant/contacts/commands.py:179-185 | searching for any piece of a contact's name, typed in any mix of cases, finds the contact |
| ContactCommands.FoundByName | assistant/contacts/commands.py:183-185 | every contact is found by its own full name |
| Notes.NewNote | assistant/notes/note.py:16-29 | a new note has the given title and content, no tags when none are given, and both timestamps equal to the creation instant |
| Notes.UpdateContent | assistant/notes/note.py:31-34 | `update_content` changes only the content and the update time |
| Notes.AddTag | assistant/notes/note.py:36-40 | `add_tag` leaves a note that already has the tag unchanged, and otherwise appends the tag and bumps the update time; tags stay distinct |
| Notes.RemoveFirst | assistant/notes/note.py:45 | `list.remove` drops one copy of the value, the first one, and keeps the order of the rest |
| Notes.RemoveTag | assistant/notes/note.py:42-46 | `remove_tag` drops the first copy of a present tag, keeping the order of the other tags, and bumps the update time; it leaves the note unchanged for an absent tag; distinct tags stay distinct, without that tag |
| Notes.RemoveUndoesAdd | assistant/notes/note.py:36-46 | removing a tag just added gives back the old tag list |
| Notes.FromDict | assistant/notes/note.py:58-64 | `from_dict` raises `KeyError` for a missing title, then for a missing content; missing tags become empty, and a missing timestamp becomes the load instant |
| Notes.FromDictOfToDict | assistant/notes/note.py:48-64 | a saved note loads back unchanged, whatever the clock says |
| Notes.TagsSuffix | assistant/notes/note.py:68 | the tag suffix is empty exactly when the note has no tags |
| Notes.Show | assistant/notes/note.py:66-69 | a shown note is the memo line with title and tags ending in a newline, then the content, then the calendar marker and the first ten characters (the date part) of the creation time |
| Notebooks.AddNote | assistant/notes/notebook.py:20-36 | `add_note` refuses a title in use and leaves the notebook unchanged; otherwise it appends a fresh note under the title and leaves every other title alone |
| Notebooks.GetNote | assistant/notes/notebook.py:38-40 | `get_note` returns the note filed under the title, and `None` exactly when there is none |
| Notebooks.EditNote | assistant/notes/notebook.py:42-57 | `edit_note` reports an unknown title; otherwise it updates that note in place and leaves every other note and the title order alone |
| Notebooks.DeleteNote | assistant/notes/notebook.py:59-73 | `delete_note` reports an unknown title; otherwise it removes exactly that note and keeps the other notes in order |
| Notebooks.SearchNotes | assistant/notes/notebook.py:75-89 | the results are exactly the notes whose title or content contains the keyword, ignoring case |
| Notebooks.SearchIsSelect | assistant/notes/notebook.py:85-89 | the search keeps the matching notes in notebook order, each once |
| Notebooks.SearchIgnoresKeywordCase | assistant/notes/notebook.py:85 | lowering the keyword first finds the same notes |
| Notebooks.EmptyKeywordFindsAll | assistant/notes/notebook.py:85-89 | the empty keyword finds every note, in order |
| Notebooks.AddedNoteFoundByTitle | assistant/notes/notebook.py:32-35 | a note just added is found by searching for its own title |
| Notebooks.GetAllNotes | assistant/notes/notebook.py:91-93 | every note, in notebook order |
| Notebooks.Len | assistant/notes/notebook.py:103-105 | a notebook is never shorter than its number of distinct titles, and with distinct titles its length is exactly that number |
| Notebooks.ToDict | assistant/notes/notebook.py:95-97 | every note's dict under the same title, in order |
| Notebooks.FromDict | assistant/notes/notebook.py:99-101 | each entry is read under its own title; the read fails exactly when some entry lacks a title or content |
| Notebooks.FromDictOfToDict | assistant/notes/notebook.py:95-101 | a saved notebook loads back unchanged |
| NoteCommands.AddNoteCmd | assistant/notes/commands.py:23-41 | `add-note` needs two words; it files an untagged note whose content is the remaining words, or refuses a title in use; other notes stay |
| NoteCommands.AddedContentWords | assistant/notes/commands.py:38-41 | note content typed as separate words splits back into those words |
| NoteCommands.EditNoteCmd | assistant/notes/commands.py:44-62 | `edit-note` sets the named note's content to the remaining words and stamps it, or reports an unknown title; other notes stay |
| NoteCommands.DeleteNoteCmd | assistant/notes/commands.py:65-81 | `delete-note` removes the note titled by the first word, keeping the other notes in order, or reports it missing; other notes stay |
| NoteCommands.Shows | assistant/notes/commands.py:108-110 | one note text per note, in order |
| NoteCommands.ListingLayout | assistant/notes/commands.py:105-112 | the joined listing is the header, a line break, the rule, then for each note a blank line, its text, a line break and a dashed line |
| NoteCommands.SearchNotesCmd | assistant/notes/commands.py:84-112 | `search-note` needs a keyword; it lays out the matching notes under a header that counts them, or says none were found |
| NoteCommands.ShowAllNotes | assistant/notes/commands.py:115-139 | `show-notes` lays out every note under a header with the total, or shows the empty-notebook hint |
| Core.KeepDigits | assistant/core.py:17 | removing non-digits leaves only digits, never lengthens the text, and leaves digit-only text unchanged |
| Core.KeepDigitsAppend | assistant/core.py:17 | the digits of joined texts are the joined digits of the parts |
| Core.KeepDigitsOfChar | assistant/core.py:17 | a single character is kept exactly when it is a digit |
| Core.ValidPhoneDigits | assistant/core.py:12-19 | a phone is valid exactly when its digits are ten starting with 0, or twelve starting with 380 |
| Core.NormalizePhone | assistant/core.py:26-37 | normalisation fails exactly for invalid phones, with the invalid-number message; otherwise it yields `+380` and the last nine digits |
| Core.NormalizeIdempotent | assistant/core.py:26-37 | a normalised phone is valid and normalises to itself |
| Core.FindChar | assistant/core.py:23 | finds the first position of a character at or after a start, or reports that there is none |
| Core.EmailBodyIff | assistant/core.py:21-24 | splitting at the first `@` and the first dot after it succeeds exactly when some split of the text matches the pattern |
| Core.ValidateEmailIff | assistant/core.py:21-24 | the email check accepts exactly what `re.match` of the anchored pattern accepts, including a final newline before `$` |
| Core.InputError | assistant/core.py:39-52 | a handler's reply passes through; each exception kind becomes its fixed text, with an unexpected one prefixed by "An error occurred: " |
| Core.ParseInput | assistant/core.py:54-58 | blank input fails to unpack; otherwise the command is the first word lowered and the arguments are the rest, in one flat tuple |
| Core.ParseInputOfWords | assistant/core.py:54-58 | a line of single-space-separated words parses back into the lowered command and the same arguments |
| Validators.InputError | assistant/validators/fields.py:16-31 | a handler's reply passes through; an `IndexError` becomes "Invalid command format.", and an unexpected one is prefixed by "Error: " |
| Validators.DecoratorsAgree | assistant/validators/fields.py:16-31 | the two decorators give the same text exactly for a reply, a `ValueError` or a `KeyError` |
| Validators.ParseInput | assistant/validators/fields.py:34-46 | blank input is the empty command; otherwise the first token lowered is the command and the rest are arguments, and only an empty token list raises `IndexError` |
| Validators.FallbackAgreesWithCore | assistant/validators/fields.py:39-46 | when `shlex` gives up, this parser splits the line as `core.parse_input` does |
| CommandTable.MembersAreTheGroup | assistant/commands_enum.py:22-46 | each enum lists exactly the commands of its group |
| CommandTable.FromValue | assistant/commands_enum.py:22-46 | a word names a command only if it is that command's value |
| CommandTable.FromValueOfValue | assistant/commands_enum.py:22-46 | every command is found again from its own word |
| CommandTable.ValuesDistinct | assistant/commands_enum.py:22-46 | no two commands share a word |
| CommandTable.GetCommandHelp | assistant/commands_enum.py:139-141 | a help entry exists exactly for the words that name a command, and it is that command's entry |
| CommandTable.Format | assistant/commands_enum.py:55-58 | a help line is two spaces, the stripped usage, dots up to the width (the usage is never cut), a space and the description |
| CommandTable.HelpColumnsAlign | assistant/commands_enum.py:62-136 | at the help screen's width of 45, every command's description starts in column 48 |

## Left out

- The REPL in `main.py`, the dispatcher table it builds from the `register_*_commands` functions, `storage_manager.py` (JSON files on disk) and `typeahead.py` (terminal completion) are not part of this model. They are I/O and glue.
- `format_contact` lives in a module that is not part of this model. It is the parameter `render` of the contact commands, told which fields to show.
- `Record.__str__` is not modelled. No modelled command uses it; cards come from `format_contact`.
- `shlex.split` is the parameter `tokenize`. Its quoting rules are not modelled.
- Logging in the second `input_error` is left out.
- Clocks: `datetime.now().isoformat()` is the parameter `now` and `datetime.today()` is `today`. A notebook load uses one `now` for every note, where Python reads the clock once per note.
- `str.lower`, `str.isdigit`, `str.isspace` and the regex class `\d` are modelled for ASCII only. Python also lowers non-ASCII letters and accepts other Unicode digits and spaces.
- `int()` is modelled for an optional sign and decimal digits around surrounding whitespace. Underscore separators and non-ASCII digits are not accepted. The error text quotes the word plainly, where Python uses `repr`.
- Dates hold years up to 9999, as Python's `date` does. A next-year birthday in year 9999 would overflow in Python and is not modelled as an error.
- `Records.FromDict`: a dict with no non-empty `name` and no `Name` gets the name "" where Python stores `None` (or `""` for a present empty `name`). The name must be a string in this model.
- `Notes.FromDict`: a `null` timestamp in the JSON is not distinguished from a missing one. Python would keep `None`.
- `AddressBook.FromList`: when an item fails to load, the model gives the failure alone. Python has already replaced the book with the items loaded before it.
- `ContactFields.ParseBirthday`: `Birthday.__init__` stores its text unchanged, but `days_to_birthday`, `get_upcoming_birthdays` and `to_dict` treat the value as a `date`, which a string is not. The model takes the evident intent: the text is read as `DD.MM.YYYY`, and unreadable text raises `ValueError("Invalid date format. Use DD.MM.YYYY")`, the format the usage line and the help table name. The error text is a chosen one.
- `Records.EditPhone`: `Phone` has no `set` method, so `edit_phone` raises `AttributeError` whenever the old phone is found. The model takes the evident intent, replacing the phone's value in place.
- `AddressBook.Delete`: the book class has no `delete` method, so `delete_contact` raises `AttributeError` as written. The model supplies the removal the command expects, returning whether the name was present.
- `CommandTable.Command`: the `Contacts` enum has no `SEARCH` or `DELETE` member, so `register_contact_commands` raises `AttributeError` as written. The table is modelled as written, with 17 commands. `search-contacts` and `delete-contact` are modelled as the handler functions `ContactCommands.SearchContacts` and `ContactCommands.DeleteContact`.
- The commands never call `validate_phone`, `validate_email` or `normalize_phone`. Phones and emails are stored as typed, and `add` only demands ten digits. The validators are modelled on their own.
- `ContactCommands.Matching`: phones are lowered and matched as substrings, like the other fields, as the code does. Case-sensitive phone matching is not modelled.
- `Core.ParseInput` returns one flat tuple (command, then each argument), as the code does. A `(command, args)` pair is not modelled.
- `Core.ValidateEmail` models the `re.match` semantics of `$`: the end of the text, or just before a final newline. Other regex features do not occur in the pattern.
- `ContactCommands.ShowAll`, `ContactCommands.SearchContacts`, `ContactCommands.BirthdaysCmd`: the card text itself is whatever `render` returns. Only the choice of records, their order and the separators are stated.
- `Notes.NewNote`, `Notes.ToDict`: Python keeps the caller's non-empty tag list object, and `to_dict` hands out that same list, so later changes through either reference show in both. Values here are immutable, so that aliasing is not modelled.
- `CommandTable.Format`: the default `width=40` is not modelled. The width is always passed, and the help screen passes 45.

=== FILE: address_book.dfy ===
/** The address book: contact records in a name-keyed store, with dict
    serialisation, the legacy list shape, and the upcoming-birthdays window. */
module AddressBook {
  import opened Wrappers
  import opened Errors
  import opened Store
  import opened Records
  import opened ContactFields
  import Dates

  type Book = Entries<Record>

  /** Every record sits under its own name, as `add_record` files it. */
  predicate KeysMatchNames(b: Book) {
    forall i :: 0 <= i < |b| ==> b[i].0 == b[i].1.name.value
  }

  /** `add_record`: files the record under its name, replacing any record
      already there and leaving every other key alone. */
  function AddRecord(b: Book, r: Record): (b': Book)
    ensures Get(b', r.name.value) == Some(r)
    ensures forall k :: k != r.name.value ==> Get(b', k) == Get(b, k)
    ensures r.name.value in Keys(b) ==> Keys(b') == Keys(b)
    ensures r.name.value !in Keys(b) ==> Keys(b') == Keys(b) + [r.name.value]
    ensures UniqueKeys(b) ==> UniqueKeys(b')
    ensures KeysMatchNames(b) ==> KeysMatchNames(b')
  {
    Put(b, r.name.value, r)
  }

  /** `find`: the record stored under exactly `name`. */
  function Find(b: Book, name: string): (r: Option<Record>)
    ensures r.None? <==> name !in Keys(b)
    ensures UniqueKeys(b) ==> forall i :: 0 <= i < |b| && b[i].0 == name ==> r == Some(b[i].1)
  {
    Get(b, name)
  }

  /** Removal by key, which the `delete-contact` command expects of the book
      (the book class itself defines no such method): the updated book and
      whether a record was there. */
  function Delete(b: Book, name: string): (res: (Book, bool))
    ensures res.1 <==> name in Keys(b)
    ensures !res.1 ==> res.0 == b
    ensures res.1 ==> DropsFirst(b, name, res.0)
    ensures UniqueKeys(b) ==> Get(res.0, name) == None && UniqueKeys(res.0)
    ensures forall k :: k != name ==> Get(res.0, k) == Get(b, k)
  {
    (Remove(b, name), name in Keys(b))
  }

  // ---- Serialisation ----

  /** `to_dict`: each record's dict under the same key. */
  function ToDict(b: Book): (d: Entries<RecordDict>)
    ensures Keys(d) == Keys(b)
    ensures forall i :: 0 <= i < |b| ==> d[i].1 == Records.ToDict(b[i].1)
  {
    MapValues(b, Records.ToDict)
  }

  /** `from_dict`: every entry read back under its own key; the first entry
      that cannot be read raises and the book is not replaced. */
  function FromDict(d: Entries<RecordDict>): (res: Result<Book, Exc>)
    ensures res.Success? ==> Keys(res.value) == Keys(d)
                             && forall i :: 0 <= i < |d| ==> Records.FromDict(d[i].1) == Success(res.value[i].1)
    ensures res.Failure? <==> exists i :: 0 <= i < |d| && Records.FromDict(d[i].1).Failure?
    decreases |d|
  {
    if |d| == 0 then Success([])
    else
      var init := d[..|d| - 1];
      var last := d[|d| - 1];
      assert forall i :: 0 <= i < |init| ==> init[i] == d[i];
      match FromDict(init)
      case Failure(e) => Failure(e)
      case Success(b) =>
        match Records.FromDict(last.1)
        case Failure(e) => Failure(e)
        case Success(r) =>
          var b' := b + [(last.0, r)];
          assert Keys(b') == Keys(b) + [last.0];
          assert Keys(d) == Keys(init) + [last.0];
          Success(b')
  }

  /** Reading back a written book gives the same keys, each record
      round-tripped as a single record is. */
  lemma FromDictOfToDict(b: Book)
    ensures FromDict(ToDict(b)) == Success(MapValues(b, Canonical))
  {
    var d := ToDict(b);
    forall i | 0 <= i < |d|
      ensures Records.FromDict(d[i].1) == Success(Canonical(b[i].1))
    {
      Records.FromDictOfToDict(b[i].1);
    }
    var r := FromDict(d).value;
    assert |r| == |b|;
    forall i | 0 <= i < |b|
      ensures r[i] == (b[i].0, Canonical(b[i].1))
    {
      assert Keys(r)[i] == Keys(d)[i];
      assert Records.FromDict(d[i].1) == Success(r[i].1);
    }
    assert r == MapValues(b, Canonical);
  }

  /** Parses the items in order; the first one that cannot be read raises. */
  function ParseAll(items: seq<RecordDict>): (res: Result<seq<Record>, Exc>)
    ensures res.Success? ==> |res.value| == |items|
    ensures res.Success? ==> forall i :: 0 <= i < |items| ==> Records.FromDict(items[i]) == Success(res.value[i])
    ensures res.Success? ==> forall i :: 0 <= i < |items| ==> res.value[i].name.value == DictName(items[i])
    ensures res.Failure? <==> exists i :: 0 <= i < |items| && Records.FromDict(items[i]).Failure?
    decreases |items|
  {
    if |items| == 0 then Success([])
    else
      var init := items[..|items| - 1];
      assert forall i :: 0 <= i < |init| ==> init[i] == items[i];
      match ParseAll(init)
      case Failure(e) => Failure(e)
      case Success(rs) =>
        match Records.FromDict(items[|items| - 1])
        case Failure(e) => Failure(e)
        case Success(r) => Success(rs + [r])
  }

  /** `from_list`: the legacy list shape, rebuilt from an empty book by
      filing each parsed item under its name, so that a later item replaces
      an earlier one of the same name. */
  function FromList(items: seq<RecordDict>): (res: Result<Book, Exc>)
    ensures res.Failure? <==> exists i :: 0 <= i < |items| && Records.FromDict(items[i]).Failure?
    ensures res.Success? ==> UniqueKeys(res.value) && KeysMatchNames(res.value)
    ensures res.Success? ==>
              var rs := ParseAll(items).value;
              && (forall i :: 0 <= i < |items| ==> DictName(items[i]) in Keys(res.value))
              && (forall k :: k in Keys(res.value) ==>
                    exists i :: 0 <= i < |items| && DictName(items[i]) == k
                                && Get(res.value, k) == Some(rs[i])
                                && forall j :: i < j < |items| ==> DictName(items[j]) != k)
  {
    match ParseAll(items)
    case Failure(e) => Failure(e)
    case Success(rs) =>
      FromListFacts(items, rs);
      Success(FileAll(rs))
  }

  /** The items `add_record` files: every record, under its name. */
  function FileItems(rs: seq<Record>): (items: seq<Item<Record>>)
    ensures |items| == |rs|
    ensures forall i :: 0 <= i < |rs| ==> items[i] == Item(true, rs[i].name.value, rs[i])
  {
    seq(|rs|, i requires 0 <= i < |rs| => Item(true, rs[i].name.value, rs[i]))
  }

  /** Files the records one after another with `add_record`. */
  function FileAll(rs: seq<Record>): (b: Book)
    ensures UniqueKeys(b) && KeysMatchNames(b)
    ensures b == Collect(FileItems(rs))
    decreases |rs|
  {
    if |rs| == 0 then []
    else
      var init := rs[..|rs| - 1];
      assert FileItems(rs)[..|rs| - 1] == FileItems(init);
      AddRecord(FileAll(init), rs[|rs| - 1])
  }

  /** Filing the records read from the items, spelled out in terms of the
      items' names. */
  lemma FromListFacts(items: seq<RecordDict>, rs: seq<Record>)
    requires |rs| == |items|
    requires forall i :: 0 <= i < |items| ==> rs[i].name.value == DictName(items[i])
    ensures var b := FileAll(rs);
            && (forall i :: 0 <= i < |items| ==> DictName(items[i]) in Keys(b))
            && (forall k :: k in Keys(b) ==>
                  exists i :: 0 <= i < |items| && DictName(items[i]) == k
                              && Get(b, k) == Some(rs[i])
                              && forall j :: i < j < |items| ==> DictName(items[j]) != k)
  {
  }

  // ---- Upcoming birthdays ----

  /** The next-occurrence computation as `get_upcoming_birthdays` writes it
      out for itself, apart from `days_to_birthday`. */
  function UpcomingDate(bd: Dates.Date, today: Dates.Date): Dates.Date {
    var thisYear :=
      match Dates.ReplaceYear(bd, today.year)
      case Some(c) => c
      case None => Dates.Ymd(today.year, 2, 28);
    if Dates.Before(thisYear, today) then
      match Dates.ReplaceYear(bd, today.year + 1)
      case Some(c) => c
      case None => Dates.Ymd(today.year + 1, 2, 28)
    else thisYear
  }

  /** The two copies of the algorithm agree: the book's day delta is the
      record's `days_to_birthday`. */
  lemma UpcomingAgreesWithRecord(r: Record, today: Dates.Date)
    requires r.birthday.Some?
    ensures UpcomingDate(r.birthday.value.value, today) == NextBirthday(r.birthday.value.value, today)
    ensures DaysToBirthday(r, today) == Some(Dates.DaysBetween(today, UpcomingDate(r.birthday.value.value, today)))
  {
  }

  /** The record has a birthday whose next occurrence is at most `window`
      days away. */
  predicate Listed(r: Record, window: int, today: Dates.Date) {
    r.birthday.Some? && DaysToBirthday(r, today).value <= window
  }

  /** The formatted next occurrence of a record's birthday (empty when it
      has none). */
  function NextBirthdayText(r: Record, today: Dates.Date): string {
    match r.birthday
    case None => ""
    case Some(bd) => Dates.Format(NextBirthday(bd.value, today))
  }

  /** `r` lists exactly the names of the records of `b` whose birthday is
      within the window, each with the next occurrence of such a record
      (the last one in book order when two records share a name). */
  predicate ListsUpcoming(b: Book, r: Entries<string>, window: int, today: Dates.Date) {
    && UniqueKeys(r)
    && (forall i :: 0 <= i < |b| && Listed(b[i].1, window, today) ==> b[i].1.name.value in Keys(r))
    && (forall n :: n in Keys(r) ==>
          exists i :: 0 <= i < |b| && Listed(b[i].1, window, today) && b[i].1.name.value == n
                      && Get(r, n) == Some(NextBirthdayText(b[i].1, today))
                      && forall j :: i < j < |b| && Listed(b[j].1, window, today) ==> b[j].1.name.value != n)
  }

  /** One pass of the loop of `get_upcoming_birthdays`. */
  function UpcomingStep(acc: Entries<string>, rec: Record, window: int, today: Dates.Date): Entries<string> {
    match rec.birthday
    case None => acc
    case Some(bd) =>
      var next := UpcomingDate(bd.value, today);
      var delta := Dates.DaysBetween(today, next);
      if 0 <= delta <= window then Put(acc, rec.name.value, Dates.Format(next)) else acc
  }

  lemma UpcomingStepShape(acc: Entries<string>, rec: Record, window: int, today: Dates.Date)
    ensures UpcomingStep(acc, rec, window, today)
            == if Listed(rec, window, today) then Put(acc, rec.name.value, NextBirthdayText(rec, today)) else acc
  {
    if rec.birthday.Some? {
      UpcomingAgreesWithRecord(rec, today);
    }
  }

  /** What one record contributes to the loop: kept when listed, under
      its name, with its next birthday. */
  function UpcomingItem(rec: Record, window: int, today: Dates.Date): Item<string> {
    Item(Listed(rec, window, today), rec.name.value, NextBirthdayText(rec, today))
  }

  /** The items of the loop, one per record in book order. */
  function UpcomingItems(b: Book, window: int, today: Dates.Date): (items: seq<Item<string>>)
    ensures |items| == |b|
    decreases |b|
  {
    if |b| == 0 then []
    else UpcomingItems(b[..|b| - 1], window, today) + [UpcomingItem(b[|b| - 1].1, window, today)]
  }

  lemma {:induction false} UpcomingItemAt(b: Book, window: int, today: Dates.Date, i: nat)
    requires i < |b|
    ensures UpcomingItems(b, window, today)[i] == UpcomingItem(b[i].1, window, today)
    decreases |b|
  {
    if i < |b| - 1 {
      UpcomingItemAt(b[..|b| - 1], window, today, i);
    }
  }

  /** The loop of `get_upcoming_birthdays` over the records in book order,
      for a window already clamped: the dict comprehension of the listed
      records' names and next dates, a later record winning. */
  function Upcoming(b: Book, window: int, today: Dates.Date): (r: Entries<string>)
    ensures Collects(UpcomingItems(b, window, today), r)
    decreases |b|
  {
    if |b| == 0 then []
    else
      var init := b[..|b| - 1];
      var rest := Upcoming(init, window, today);
      var rec := b[|b| - 1].1;
      UpcomingStepShape(rest, rec, window, today);
      var r := UpcomingStep(rest, rec, window, today);
      CollectStep(UpcomingItems(init, window, today), UpcomingItem(rec, window, today), rest, r);
      r
  }

  /** The comprehension over the items says, record by record, what
      `ListsUpcoming` says. */
  lemma UpcomingMeaning(b: Book, r: Entries<string>, window: int, today: Dates.Date)
    requires Collects(UpcomingItems(b, window, today), r)
    ensures ListsUpcoming(b, r, window, today)
  {
    var items := UpcomingItems(b, window, today);
    forall i | 0 <= i < |b|
      ensures items[i] == UpcomingItem(b[i].1, window, today)
    {
      UpcomingItemAt(b, window, today, i);
    }
  }

  /** `days = None` means 7 and a negative window means 0. */
  function EffectiveWindow(days: Option<int>): (w: nat)
    ensures days.None? ==> w == 7
    ensures days.Some? && days.value < 0 ==> w == 0
    ensures days.Some? && days.value >= 0 ==> w == days.value
  {
    match days
    case None => 7
    case Some(d) => if d < 0 then 0 else d
  }

  /** `get_upcoming_birthdays(days)` with today's date passed in: the
      names of exactly the records whose next birthday is 0..window days
      away, each with that date as `DD.MM.YYYY`. */
  function GetUpcomingBirthdays(b: Book, days: Option<int>, today: Dates.Date): (r: Entries<string>)
    ensures ListsUpcoming(b, r, EffectiveWindow(days), today)
  {
    var r := Upcoming(b, EffectiveWindow(days), today);
    UpcomingMeaning(b, r, EffectiveWindow(days), today);
    r
  }

  /** In a book whose records sit under their own names, every listed
      name is a key of the book. */
  lemma ListedNamesAreKeys(b: Book, r: Entries<string>, window: int, today: Dates.Date)
    requires KeysMatchNames(b)
    requires ListsUpcoming(b, r, window, today)
    ensures forall n :: n in Keys(r) ==> n in Keys(b)
  {
    forall n | n in Keys(r)
      ensures n in Keys(b)
    {
      var i :| 0 <= i < |b| && b[i].1.name.value == n;
      assert Keys(b)[i] == b[i].0;
    }
  }

  /** Widening the window never drops a name. */
  lemma UpcomingMonotone(b: Book, d1: int, d2: int, today: Dates.Date)
    requires d1 <= d2
    ensures forall n :: n in Keys(GetUpcomingBirthdays(b, Some(d1), today)) ==>
                          n in Keys(GetUpcomingBirthdays(b, Some(d2), today))
  {
    var r1 := GetUpcomingBirthdays(b, Some(d1), today);
    var r2 := GetUpcomingBirthdays(b, Some(d2), today);
    forall n | n in Keys(r1)
      ensures n in Keys(r2)
    {
      var i :| 0 <= i < |b| && Listed(b[i].1, EffectiveWindow(Some(d1)), today) && b[i].1.name.value == n
               && Get(r1, n) == Some(NextBirthdayText(b[i].1, today));
      assert Listed(b[i].1, EffectiveWindow(Some(d2)), today);
    }
  }

  /** A record whose birthday falls on today's month and day is listed even
      for a window of 0. */
  lemma BirthdayTodayIsListed(b: Book, i: nat, today: Dates.Date)
    requires i < |b| && b[i].1.birthday.Some?
    requires b[i].1.birthday.value.value.month == today.month
    requires b[i].1.birthday.value.value.day == today.day
    ensures b[i].1.name.value in Keys(GetUpcomingBirthdays(b, Some(0), today))
  {
    var bd := b[i].1.birthday.value.value;
    assert OccurrenceIn(bd, today.year) == today;
    assert Listed(b[i].1, 0, today);
  }
}

=== FILE: commands_enum.dfy ===
/** The command names of `assistant/commands_enum.py`, grouped as the three
    string enums `Contacts`, `Notes` and `General`, and the help table with
    its one-line layout. A `str` enum member compares and hashes like its
    value, so the table is looked up by the typed word. */
module CommandTable {
  import opened Wrappers
  import Text

  datatype Command =
    // Contacts
    | Add | Change | Phone | All | AddBirthday | ShowBirthday | Birthdays | AddEmail | AddAddress
    // Notes
    | AddNote | EditNote | DeleteNote | SearchNote | ShowNotes
    // General
    | Hello | Help | Close

  datatype Group = Contacts | Notes | General

  function GroupOf(c: Command): Group {
    match c
    case Add | Change | Phone | All | AddBirthday | ShowBirthday | Birthdays | AddEmail | AddAddress => Contacts
    case AddNote | EditNote | DeleteNote | SearchNote | ShowNotes => Notes
    case Hello | Help | Close => General
  }

  /** The members of each enum in declaration order (iteration order of the
      enum class). */
  const ContactCommands: seq<Command> := [Add, Change, Phone, All, AddBirthday, ShowBirthday, Birthdays, AddEmail, AddAddress]
  const NoteCommands: seq<Command> := [AddNote, EditNote, DeleteNote, SearchNote, ShowNotes]
  const GeneralCommands: seq<Command> := [Hello, Help, Close]

  function Members(g: Group): seq<Command> {
    match g
    case Contacts => ContactCommands
    case Notes => NoteCommands
    case General => GeneralCommands
  }

  /** Each enum lists exactly the commands of its group. */
  lemma MembersAreTheGroup(g: Group, c: Command)
    ensures c in Members(g) <==> GroupOf(c) == g
  {
    match c
    case Add => assert ContactCommands[0] == c;
    case Change => assert ContactCommands[1] == c;
    case Phone => assert ContactCommands[2] == c;
    case All => assert ContactCommands[3] == c;
    case AddBirthday => assert ContactCommands[4] == c;
    case ShowBirthday => assert ContactCommands[5] == c;
    case Birthdays => assert ContactCommands[6] == c;
    case AddEmail => assert ContactCommands[7] == c;
    case AddAddress => assert ContactCommands[8] == c;
    case AddNote => assert NoteCommands[0] == c;
    case EditNote => assert NoteCommands[1] == c;
    case DeleteNote => assert NoteCommands[2] == c;
    case SearchNote => assert NoteCommands[3] == c;
    case ShowNotes => assert NoteCommands[4] == c;
    case Hello => assert GeneralCommands[0] == c;
    case Help => assert GeneralCommands[1] == c;
    case Close => assert GeneralCommands[2] == c;
  }

  /** The word typed for a command. */
  function Value(c: Command): string {
    match c
    case Add => "add"
    case Change => "change"
    case Phone => "phone"
    case All => "all"
    case AddBirthday => "add-birthday"
    case ShowBirthday => "show-birthday"
    case Birthdays => "birthdays"
    case AddEmail => "add-email"
    case AddAddress => "add-address"
    case AddNote => "add-note"
    case EditNote => "edit-note"
    case DeleteNote => "delete-note"
    case SearchNote => "search-note"
    case ShowNotes => "show-notes"
    case Hello => "hello"
    case Help => "help"
    case Close => "close"
  }

  /** The member whose value is `s`: `Command.X(s)` across the three enums. */
  function FromValue(s: string): (r: Option<Command>)
    ensures r.Some? ==> Value(r.value) == s
  {
    if s == "add" then Some(Add)
    else if s == "change" then Some(Change)
    else if s == "phone" then Some(Phone)
    else if s == "all" then Some(All)
    else if s == "add-birthday" then Some(AddBirthday)
    else if s == "show-birthday" then Some(ShowBirthday)
    else if s == "birthdays" then Some(Birthdays)
    else if s == "add-email" then Some(AddEmail)
    else if s == "add-address" then Some(AddAddress)
    else if s == "add-note" then Some(AddNote)
    else if s == "edit-note" then Some(EditNote)
    else if s == "delete-note" then Some(DeleteNote)
    else if s == "search-note" then Some(SearchNote)
    else if s == "show-notes" then Some(ShowNotes)
    else if s == "hello" then Some(Hello)
    else if s == "help" then Some(Help)
    else if s == "close" then Some(Close)
    else None
  }

  /** Reading a command's own word gives the command back. */
  lemma FromValueOfValue(c: Command)
    ensures FromValue(Value(c)) == Some(c)
  {
    match c
    case Add =>
    case Change =>
    case Phone =>
    case All =>
    case AddBirthday =>
    case ShowBirthday =>
    case Birthdays =>
    case AddEmail =>
    case AddAddress =>
    case AddNote =>
    case EditNote =>
    case DeleteNote =>
    case SearchNote =>
    case ShowNotes =>
    case Hello =>
    case Help =>
    case Close =>
  }

  /** No two commands share a word, so no help entry shadows another. */
  lemma ValuesDistinct(c1: Command, c2: Command)
    ensures Value(c1) == Value(c2) <==> c1 == c2
  {
    FromValueOfValue(c1);
    FromValueOfValue(c2);
  }

  datatype CommandHelp = CommandHelp(params: string, description: string)

  /** `COMMAND_HELP`: one entry per command. */
  function HelpOf(c: Command): CommandHelp {
    match c
    case Add => CommandHelp("<name> <phone>", "Add a new contact")
    case Change => CommandHelp("<name> <old_phone> <new_phone>", "Change contact's phone number")
    case Phone => CommandHelp("<name>", "Show phone number(s) for a contact")
    case All => CommandHelp("", "Show all contacts")
    case AddBirthday => CommandHelp("<name> <DD.MM.YYYY>", "Add birthday to a contact")
    case ShowBirthday => CommandHelp("<name>", "Show birthday for a contact")
    case Birthdays => CommandHelp("[days]", "Show upcoming birthdays (default: 7 days)")
    case AddEmail => CommandHelp("<name> <email>", "Add or update a contact's email")
    case AddAddress => CommandHelp("<name> <address>", "Add or update a contact's address")
    case AddNote => CommandHelp("<title> <content>", "Add a new note")
    case EditNote => CommandHelp("<title> <new_content>", "Edit an existing note")
    case DeleteNote => CommandHelp("<title>", "Delete a note")
    case SearchNote => CommandHelp("<keyword>", "Search notes by keyword")
    case ShowNotes => CommandHelp("", "Show all notes")
    case Hello => CommandHelp("", "Greet the assistant")
    case Help => CommandHelp("", "Show this help message")
    case Close => CommandHelp("", "Close the assistant")
  }

  /** `get_command_help`: the entry of the command the word names, if any. */
  function GetCommandHelp(key: string): (r: Option<CommandHelp>)
    ensures r.Some? <==> exists c :: Value(c) == key
    ensures forall c :: Value(c) == key ==> r == Some(HelpOf(c))
  {
    match FromValue(key)
    case None =>
      assert forall c :: Value(c) != key by {
        forall c ensures Value(c) != key {
          FromValueOfValue(c);
        }
      }
      None
    case Some(c) =>
      assert forall c' :: Value(c') == key ==> c' == c by {
        forall c' | Value(c') == key ensures c' == c {
          ValuesDistinct(c, c');
        }
      }
      Some(HelpOf(c))
  }

  /** The command word and its parameters, with the space dropped when there
      are none (`f"{name} {params}".strip()`). */
  function Usage(h: CommandHelp, commandName: string): string {
    Text.Strip(commandName + " " + h.params)
  }

  /** `f"  {u:.<{width}} {description}"`: two spaces, `u` padded with dots
      to `width` (never cut), one space, the description. */
  function Line(u: string, width: nat, description: string): (r: string)
    ensures var w := if |u| >= width then |u| else width;
            && |r| == 2 + w + 1 + |description|
            && r[..2] == "  "
            && r[2..2 + |u|] == u
            && (forall k :: 2 + |u| <= k < 2 + w ==> r[k] == '.')
            && r[2 + w..] == " " + description
  {
    var p := Text.PadRight(u, width, '.');
    var tail := " " + description;
    var r := "  " + p + tail;
    ThreeParts("  ", p, tail);
    assert forall k :: 2 <= k < 2 + |p| ==> r[k] == p[k - 2];
    assert r[2..2 + |u|] == p[..|u|];
    r
  }

  /** `CommandHelp.format`: the help line of the stripped usage. */
  function Format(h: CommandHelp, commandName: string, width: nat): (r: string)
    ensures var u := Usage(h, commandName);
            var w := if |u| >= width then |u| else width;
            && |r| == 2 + w + 1 + |h.description|
            && r[..2] == "  "
            && r[2..2 + |u|] == u
            && (forall k :: 2 + |u| <= k < 2 + w ==> r[k] == '.')
            && r[2 + w..] == " " + h.description
  {
    Line(Usage(h, commandName), width, h.description)
  }

  /** Where the three parts of a concatenation sit. */
  lemma ThreeParts(a: string, b: string, c: string)
    ensures var r := a + b + c;
            && |r| == |a| + |b| + |c|
            && r[..|a|] == a
            && r[|a|..|a| + |b|] == b
            && r[|a| + |b|..] == c
  {
  }

  /** When the word and its parameters fit in the width, the description
      starts right after the padded usage and the space. */
  lemma DescriptionColumn(h: CommandHelp, commandName: string, width: nat)
    requires |commandName| + 1 + |h.params| <= width
    ensures var r := Format(h, commandName, width);
            |r| == width + 3 + |h.description| && r[width + 3..] == h.description
  {
    var u := Usage(h, commandName);
    assert |u| <= |commandName| + 1 + |h.params|;
  }

  /** With the width the help screen uses (45), every description starts
      in the same column, whatever the command. */
  lemma HelpColumnsAlign(c: Command)
    ensures var r := Format(HelpOf(c), Value(c), 45);
            |r| == 48 + |HelpOf(c).description| && r[48..] == HelpOf(c).description
  {
    assert |Value(c)| + 1 + |HelpOf(c).params| <= 45;
    DescriptionColumn(HelpOf(c), Value(c), 45);
  }
}

=== FILE: contact_commands.dfy ===
/** The contact commands of `assistant/contacts/commands.py`. Each takes the
    argument words after the command name and the book, and gives the
    reply text (and the updated book, for the commands that change it);
    every one is wrapped by `core.input_error`, so an exception a handler
    raises becomes the reply. The card layout (`format_contact`) lives in a
    module that is not part of this model: it is the parameter `render`,
    told which fields to show. */
module ContactCommands {
  import opened Wrappers
  import opened Errors
  import opened Text
  import opened Store
  import opened ContactFields
  import opened Records
  import opened AddressBook
  import Core
  import Dates

  /** The `include_fields` / `birthday_override` choices of `format_contact`. */
  datatype View = Full | PhonesOnly | BirthdayOnly(override: Option<string>)

  type Render = (Record, View) -> string

  const NotFoundReply := "Contact not found."

  /** The record under `name`, or a fresh one when there is none: the
      `find`-or-create step several commands share. */
  function FindOrNew(b: Book, name: string): (r: Record)
    ensures name in Keys(b) ==> (name, r) in b && Get(b, name) == Some(r)
    ensures name !in Keys(b) ==> r == NewRecord(name) && r.name.value == name && r.phones == []
  {
    match Find(b, name)
    case Some(r) => r
    case None => NewRecord(name)
  }

  // ---- add ----

  const AddUsage := "Usage: add [name] [phone number] with 10 digits"

  /** `add_contact`: a ten-digit phone is appended to the contact, which is
      created first when the name is new. */
  function AddContact(args: seq<string>, b: Book): (res: (Book, string))
    ensures |args| < 2 || |args[1]| != 10 || !AllDigits(args[1]) ==> res == (b, AddUsage)
    ensures |args| >= 2 && |args[1]| == 10 && AllDigits(args[1]) ==>
              var name := args[0];
              && Find(res.0, name) == Some(AddPhone(FindOrNew(b, name), args[1]))
              && (forall k :: k != name ==> Find(res.0, k) == Find(b, k))
              && (name in Keys(b) ==> Keys(res.0) == Keys(b))
              && (name !in Keys(b) ==> Keys(res.0) == Keys(b) + [name])
              && res.1 == (if name in Keys(b) then "Contact " + name + " updated."
                           else "Contact " + name + " created.")
    ensures UniqueKeys(b) ==> UniqueKeys(res.0)
  {
    if |args| < 2 || |args[1]| != 10 || !AllDigits(args[1]) then (b, AddUsage)
    else
      var name := args[0];
      var msg := if name in Keys(b) then "Contact " + name + " updated." else "Contact " + name + " created.";
      (Put(b, name, AddPhone(FindOrNew(b, name), args[1])), msg)
  }

  // ---- change ----

  const ChangeUsage := "Usage: change [name] [old phone] [new phone]"

  /** `change_contact`: the first phone equal to the old one takes the new
      value; an unknown contact or phone is reported and changes nothing. */
  function ChangeContact(args: seq<string>, b: Book): (res: (Book, string))
    ensures |args| != 3 ==> res == (b, ChangeUsage)
    ensures |args| == 3 && args[0] !in Keys(b) ==> res == (b, NotFoundReply)
    ensures |args| == 3 && args[0] in Keys(b) ==>
              var edit := EditPhone(Find(b, args[0]).value, args[1], args[2]);
              && (edit.Failure? ==> res == (b, "Phone number " + args[1] + " not found"))
              && (edit.Success? ==>
                    && Find(res.0, args[0]) == Some(edit.value)
                    && (forall k :: k != args[0] ==> Find(res.0, k) == Find(b, k))
                    && Keys(res.0) == Keys(b)
                    && res.1 == "Phone number for " + args[0] + " has been changed.")
  {
    if |args| != 3 then (b, ChangeUsage)
    else
      var name := args[0];
      match Find(b, name)
      case None => (b, NotFoundReply)
      case Some(r) =>
        match EditPhone(r, args[1], args[2])
        case Failure(e) => (b, Core.ErrorText(e))
        case Success(r') => (Put(b, name, r'), "Phone number for " + name + " has been changed.")
  }

  // ---- phone / show-birthday ----

  /** The reply of a one-name command that shows one card view. */
  function ShowOne(args: seq<string>, b: Book, render: Render, usage: string, view: View): (s: string)
    ensures |args| != 1 ==> s == usage
    ensures |args| == 1 && args[0] !in Keys(b) ==> s == NotFoundReply
    ensures |args| == 1 && args[0] in Keys(b) ==> s == render(Find(b, args[0]).value, view)
  {
    if |args| != 1 then usage
    else
      match Find(b, args[0])
      case None => NotFoundReply
      case Some(r) => render(r, view)
  }

  /** `show_phone`. */
  function ShowPhone(args: seq<string>, b: Book, render: Render): (s: string)
    ensures |args| != 1 ==> s == "Usage: phone <name> <phone>"
    ensures |args| == 1 && args[0] !in Keys(b) ==> s == NotFoundReply
    ensures |args| == 1 && args[0] in Keys(b) ==> s == render(Find(b, args[0]).value, PhonesOnly)
  {
    ShowOne(args, b, render, "Usage: phone <name> <phone>", PhonesOnly)
  }

  /** `show_birthday`. */
  function ShowBirthday(args: seq<string>, b: Book, render: Render): (s: string)
    ensures |args| != 1 ==> s == "Usage: show-birthday [name]"
    ensures |args| == 1 && args[0] !in Keys(b) ==> s == NotFoundReply
    ensures |args| == 1 && args[0] in Keys(b) ==> s == render(Find(b, args[0]).value, BirthdayOnly(None))
  {
    ShowOne(args, b, render, "Usage: show-birthday [name]", BirthdayOnly(None))
  }

  // ---- all ----

  function Cards(rs: seq<Record>, render: Render, view: View): (cs: seq<string>)
    ensures |cs| == |rs| && forall i :: 0 <= i < |rs| ==> cs[i] == render(rs[i], view)
  {
    seq(|rs|, i requires 0 <= i < |rs| => render(rs[i], view))
  }

  /** `show_all`: every card, in book order, separated by blank lines. */
  function ShowAll(args: seq<string>, b: Book, render: Render): (s: string)
    ensures |b| == 0 ==> s == "The contact list is empty."
    ensures |b| > 0 ==>
              exists cs: seq<string> ::
                && |cs| == |b| && (forall i :: 0 <= i < |b| ==> cs[i] == render(b[i].1, Full))
                && s == Join(cs, "\n\n")
  {
    if |b| == 0 then "The contact list is empty."
    else
      var cs := Cards(Values(b), render, Full);
      assert forall i :: 0 <= i < |b| ==> cs[i] == render(b[i].1, Full);
      Join(cs, "\n\n")
  }

  // ---- add-birthday / add-email / add-address ----

  const BirthdayUsage := "Usage: add-birthday [name] [date in DD.MM.YYYY format]"

  /** `add_birthday`: the contact is created (when new) before the date is
      read, so a date that cannot be read still leaves the new, empty
      contact in the book. */
  function AddBirthdayCmd(args: seq<string>, b: Book): (res: (Book, string))
    ensures |args| != 2 ==> res == (b, BirthdayUsage)
    ensures |args| == 2 ==>
              var name := args[0];
              var filed := if name in Keys(b) then b else AddRecord(b, NewRecord(name));
              var upd := Records.AddBirthday(FindOrNew(b, name), args[1]);
              && (upd.Failure? ==> res == (filed, BirthdayFormatError))
              && (upd.Success? ==>
                    && Find(res.0, name) == Some(upd.value)
                    && res.1 == "Birthday for " + name + " has been added.")
              && (forall k :: k != name ==> Find(res.0, k) == Find(b, k))
              && (name in Keys(b) ==> Keys(res.0) == Keys(b))
              && (name !in Keys(b) ==> Keys(res.0) == Keys(b) + [name])
    ensures UniqueKeys(b) ==> UniqueKeys(res.0)
  {
    if |args| != 2 then (b, BirthdayUsage)
    else
      var name := args[0];
      var r := FindOrNew(b, name);
      var filed := if name in Keys(b) then b else AddRecord(b, r);
      match Records.AddBirthday(r, args[1])
      case Failure(e) => (filed, Core.ErrorText(e))
      case Success(r') => (Put(filed, name, r'), "Birthday for " + name + " has been added.")
  }

  /** `add_email`: the email slot of the contact (created when new) is
      overwritten; the text is not checked. */
  function AddEmailCmd(args: seq<string>, b: Book): (res: (Book, string))
    ensures |args| != 2 ==> res == (b, "Usage: add-email [name] [email]")
    ensures |args| == 2 ==>
              && Find(res.0, args[0]) == Some(AddEmail(FindOrNew(b, args[0]), args[1]))
              && (forall k :: k != args[0] ==> Find(res.0, k) == Find(b, k))
              && (args[0] in Keys(b) ==> Keys(res.0) == Keys(b))
              && (args[0] !in Keys(b) ==> Keys(res.0) == Keys(b) + [args[0]])
              && res.1 == "Email for " + args[0] + " has been added."
    ensures UniqueKeys(b) ==> UniqueKeys(res.0)
  {
    if |args| != 2 then (b, "Usage: add-email [name] [email]")
    else
      var name := args[0];
      (Put(b, name, AddEmail(FindOrNew(b, name), args[1])), "Email for " + name + " has been added.")
  }

  /** `add_address`: every word after the name, joined by single spaces,
      becomes the address of the contact (created when new). */
  function AddAddressCmd(args: seq<string>, b: Book): (res: (Book, string))
    ensures |args| < 2 ==> res == (b, "Usage: add-address [name] [address]")
    ensures |args| >= 2 ==>
              && Find(res.0, args[0]) == Some(AddAddress(FindOrNew(b, args[0]), Join(args[1..], " ")))
              && (forall k :: k != args[0] ==> Find(res.0, k) == Find(b, k))
              && (args[0] in Keys(b) ==> Keys(res.0) == Keys(b))
              && (args[0] !in Keys(b) ==> Keys(res.0) == Keys(b) + [args[0]])
              && res.1 == "Address for " + args[0] + " has been added."
    ensures UniqueKeys(b) ==> UniqueKeys(res.0)
  {
    if |args| < 2 then (b, "Usage: add-address [name] [address]")
    else
      var name := args[0];
      var address := Join(args[1..], " ");
      (Put(b, name, AddAddress(FindOrNew(b, name), address)), "Address for " + name + " has been added.")
  }

  /** An address typed as separate words is stored as those words joined
      by single spaces, and splitting it gives the words back. */
  lemma AddressWordsKept(args: seq<string>, b: Book)
    requires |args| >= 2
    requires forall k :: 1 <= k < |args| ==> |args[k]| > 0 && NoSpace(args[k])
    ensures var r := Find(AddAddressCmd(args, b).0, args[0]).value;
            r.address.Some? && Words(r.address.value.value) == args[1..]
  {
    WordsOfJoin(args[1..]);
  }

  // ---- delete-contact ----

  /** `delete_contact`. */
  function DeleteContact(args: seq<string>, b: Book): (res: (Book, string))
    ensures |args| != 1 ==> res == (b, "Usage: delete-contact [name]")
    ensures |args| == 1 && args[0] !in Keys(b) ==> res == (b, NotFoundReply)
    ensures |args| == 1 && args[0] in Keys(b) ==>
              && res.1 == "Contact " + args[0] + " deleted."
              && |res.0| == |b| - 1
              && DropsFirst(b, args[0], res.0)
              && (UniqueKeys(b) ==> Find(res.0, args[0]).None?)
    ensures |args| == 1 ==> forall k :: k != args[0] ==> Find(res.0, k) == Find(b, k)
    ensures UniqueKeys(b) ==> UniqueKeys(res.0)
  {
    if |args| != 1 then (b, "Usage: delete-contact [name]")
    else
      var (b', deleted) := Delete(b, args[0]);
      if deleted then (b', "Contact " + args[0] + " deleted.") else (b, NotFoundReply)
  }

  // ---- birthdays ----

  /** The `ValueError` text of `int(s)` for a plain word. */
  function IntError(s: string): string {
    "invalid literal for int() with base 10: '" + s + "'"
  }

  /** The card of a listed name: the record's card with the next date
      written over its birthday, or `name: date` when no record is filed
      under the name. */
  function UpcomingCard(b: Book, entry: (string, string), render: Render): string {
    match Find(b, entry.0)
    case Some(r) => render(r, BirthdayOnly(Some(entry.1)))
    case None => entry.0 + ": " + entry.1
  }

  function UpcomingCards(b: Book, up: Entries<string>, render: Render): (cs: seq<string>)
    ensures |cs| == |up| && forall i :: 0 <= i < |up| ==> cs[i] == UpcomingCard(b, up[i], render)
  {
    seq(|up|, i requires 0 <= i < |up| => UpcomingCard(b, up[i], render))
  }

  function NoneWithin(window: nat): string {
    "No birthdays within the next " + NatToString(window) + " " + (if window == 1 then "day" else "days") + "."
  }

  /** `birthdays`: the optional first word is the window in days (7 when
      absent, a negative one counts as 0); each listed contact gets a card. */
  function BirthdaysCmd(args: seq<string>, b: Book, today: Dates.Date, render: Render): (s: string)
    ensures |args| > 0 && ParseInt(args[0]).None? ==> s == IntError(args[0])
    ensures |args| == 0 || ParseInt(args[0]).Some? ==>
              var window: nat := if |args| == 0 then 7
                                 else if ParseInt(args[0]).value < 0 then 0
                                 else ParseInt(args[0]).value;
              var up := GetUpcomingBirthdays(b, Some(window), today);
              && ListsUpcoming(b, up, window, today)
              && (|up| == 0 ==> s == NoneWithin(window))
              && (|up| > 0 ==> s == Join(UpcomingCards(b, up, render), "\n\n"))
  {
    var days := if |args| > 0 then ParseInt(args[0]) else Some(7);
    match days
    case None => Core.ErrorText(ValueError(IntError(args[0])))
    case Some(d) =>
      var window: nat := if d < 0 then 0 else d;
      var up := GetUpcomingBirthdays(b, Some(window), today);
      if |up| == 0 then NoneWithin(window)
      else Join(UpcomingCards(b, up, render), "\n\n")
  }

  /** In a book whose records sit under their own names, every listed
      name has a record, so the `name: date` fallback never shows. */
  lemma UpcomingCardsUseRecords(b: Book, window: nat, today: Dates.Date, render: Render)
    requires KeysMatchNames(b)
    ensures var up := GetUpcomingBirthdays(b, Some(window), today);
            forall i :: 0 <= i < |up| ==>
              Find(b, up[i].0).Some? && UpcomingCard(b, up[i], render) == render(Find(b, up[i].0).value, BirthdayOnly(Some(up[i].1)))
  {
    var up := GetUpcomingBirthdays(b, Some(window), today);
    ListedNamesAreKeys(b, up, window, today);
    forall i | 0 <= i < |up|
      ensures up[i].0 in Keys(b)
    {
      assert Keys(up)[i] == up[i].0;
    }
  }

  // ---- search-contacts ----

  /** The lowered query occurs in the lowered name, in a lowered phone, or
      in the lowered email or address when the contact has one. */
  predicate ContactMatches(r: Record, ql: string) {
    || Contains(Lower(r.name.value), ql)
    || (exists k :: 0 <= k < |r.phones| && Contains(Lower(r.phones[k].value), ql))
    || (r.email.Some? && Contains(Lower(r.email.value.value), ql))
    || (r.address.Some? && Contains(Lower(r.address.value.value), ql))
  }

  /** The matching contacts, in book order. */
  function Matching(b: Book, ql: string): (rs: seq<Record>)
    ensures |rs| <= |b|
    ensures forall r :: r in rs ==> ContactMatches(r, ql) && r in Values(b)
    ensures forall i :: 0 <= i < |b| && ContactMatches(b[i].1, ql) ==> b[i].1 in rs
    decreases |b|
  {
    if |b| == 0 then []
    else
      var init := b[..|b| - 1];
      var r := b[|b| - 1].1;
      assert Values(b) == Values(init) + [r];
      assert forall i :: 0 <= i < |init| ==> init[i] == b[i];
      Matching(init, ql) + (if ContactMatches(r, ql) then [r] else [])
  }

  /** Each matching contact appears once, in book order: the ordered
      selection of the matching entries. */
  lemma {:induction false} MatchingIsSelect(b: Book, ql: string)
    ensures Matching(b, ql) == Select(b, (r: Record) => ContactMatches(r, ql))
    decreases |b|
  {
    if |b| > 0 {
      MatchingIsSelect(b[..|b| - 1], ql);
      SelectStep(b, (r: Record) => ContactMatches(r, ql));
    }
  }

  /** The query: all the words joined by spaces, stripped. */
  function Query(args: seq<string>): string {
    Strip(Join(args, " "))
  }

  /** `search_contacts`: the cards of the contacts the query matches,
      ignoring case. */
  function SearchContacts(args: seq<string>, b: Book, render: Render): (s: string)
    ensures |args| == 0 ==> s == "Usage: search-contacts <query>"
    ensures |args| > 0 ==>
              var ms := Matching(b, Lower(Query(args)));
              && (|ms| == 0 ==> s == "No contacts matched '" + Query(args) + "'.")
              && (|ms| > 0 ==> s == Join(Cards(ms, render, Full), "\n\n"))
  {
    if |args| == 0 then "Usage: search-contacts <query>"
    else
      var query := Query(args);
      var ms := Matching(b, Lower(query));
      if |ms| == 0 then "No contacts matched '" + query + "'."
      else Join(Cards(ms, render, Full), "\n\n")
  }

  /** Searching for any piece of a contact's name, typed in any mix of
      cases, finds the contact. */
  lemma FoundByNamePiece(b: Book, i: nat, q: string, lo: nat, hi: nat)
    requires i < |b| && lo <= hi <= |b[i].1.name.value|
    requires Lower(q) == Lower(b[i].1.name.value[lo..hi])
    ensures b[i].1 in Matching(b, Lower(q))
  {
    var n := b[i].1.name.value;
    assert Lower(n[lo..hi]) == Lower(n)[lo..hi];
    OccursContains(Lower(n), Lower(q), lo);
    assert ContactMatches(b[i].1, Lower(q));
  }

  /** A contact is found by its full name. */
  lemma FoundByName(b: Book, i: nat)
    requires i < |b|
    ensures b[i].1 in Matching(b, Lower(b[i].1.name.value))
  {
    var l := Lower(b[i].1.name.value);
    assert StartsWith(l, l);
    assert ContactMatches(b[i].1, l);
  }
}

=== FILE: contact_fields.dfy ===
/** The value wrappers a contact record is built from. Each one stores its
    argument as given and checks nothing, except the birthday, which is read
    as a `DD.MM.YYYY` date. */
module ContactFields {
  import opened Wrappers
  import opened Errors
  import Dates

  datatype Name = Name(value: string)

  datatype Phone = Phone(value: string)

  datatype Email = Email(value: string)

  datatype Address = Address(value: string)

  /** A date Python's `date` type can hold and `%Y` writes in four digits. */
  type BirthDate = d: Dates.Date | d.year <= 9999 witness Dates.Ymd(1, 1, 1)

  datatype Birthday = Birthday(value: BirthDate)

  const BirthdayFormatError: string := "Invalid date format. Use DD.MM.YYYY"

  /** Builds a birthday from its `DD.MM.YYYY` text, raising `ValueError`
      for any other text. */
  function ParseBirthday(s: string): (r: Result<Birthday, Exc>)
    ensures r.Success? <==> Dates.Parse(s).Some?
    ensures r.Success? ==> FormatBirthday(r.value) == s
    ensures r.Failure? ==> r.error == ValueError(BirthdayFormatError)
  {
    match Dates.Parse(s)
    case Some(d) =>
      Dates.FormatOfParse(s);
      Success(Birthday(d))
    case None => Failure(ValueError(BirthdayFormatError))
  }

  /** `birthday.value.strftime("%d.%m.%Y")`. */
  function FormatBirthday(b: Birthday): string {
    Dates.Format(b.value)
  }

  /** Writing a birthday out and reading it back gives the same birthday. */
  lemma ParseOfFormatBirthday(b: Birthday)
    ensures ParseBirthday(FormatBirthday(b)) == Success(b)
  {
    Dates.ParseOfFormat(b.value);
  }
}

=== FILE: core.dfy ===
/** The shared command-line helpers of `assistant/core.py`: the Ukrainian
    phone and the email validators, phone normalisation, the error-to-text
    decorator and the whitespace command parser. The two regular
    expressions are matched by hand, one predicate per alternative the
    regex engine can take. */
module Core {
  import opened Wrappers
  import opened Errors
  import opened Text

  // ---- Phones ----

  /** `re.sub(r'\D', '', s)`: the digits of `s`, in order. */
  function KeepDigits(s: string): (r: string)
    ensures AllDigits(r) && |r| <= |s|
    ensures AllDigits(s) ==> r == s
    decreases |s|
  {
    if |s| == 0 then ""
    else if IsDigit(s[0]) then [s[0]] + KeepDigits(s[1..])
    else KeepDigits(s[1..])
  }

  /** One character is kept exactly when it is a digit; with
      `KeepDigitsAppend` this fixes the digits of every text. */
  lemma KeepDigitsOfChar(c: char)
    ensures KeepDigits([c]) == if IsDigit(c) then [c] else ""
  {
    assert [c][1..] == "";
  }

  /** The digits of a concatenation are the digits of the parts. */
  lemma {:induction false} KeepDigitsAppend(a: string, b: string)
    ensures KeepDigits(a + b) == KeepDigits(a) + KeepDigits(b)
    decreases |a|
  {
    if |a| == 0 {
      assert a + b == b;
    } else {
      assert (a + b)[1..] == a[1..] + b;
      KeepDigitsAppend(a[1..], b);
    }
  }

  /** `0\d{9}$` starting at position `i`. */
  predicate LocalNumberAt(c: string, i: nat) {
    i + 10 == |c| && c[i] == '0' && AllDigits(c[i + 1..])
  }

  /** `re.match(r'^(\+?38)?0\d{9}$', c)`: the group taken with the plus
      sign, taken without it, or skipped. */
  predicate PhonePattern(c: string) {
    || (|c| >= 3 && c[..3] == "+38" && LocalNumberAt(c, 3))
    || (|c| >= 2 && c[..2] == "38" && LocalNumberAt(c, 2))
    || LocalNumberAt(c, 0)
  }

  /** `validate_phone`: an empty text is rejected; otherwise its digits
      must form a Ukrainian number. */
  predicate ValidatePhone(phone: string) {
    phone != "" && PhonePattern(KeepDigits(phone))
  }

  /** Once the non-digits are gone the plus sign cannot occur, so a phone
      is valid exactly when its digits are ten starting with `0` or twelve
      starting with `380`. */
  lemma ValidPhoneDigits(phone: string)
    ensures var c := KeepDigits(phone);
            ValidatePhone(phone) <==> (|c| == 10 && c[0] == '0') || (|c| == 12 && c[..3] == "380")
  {
    var c := KeepDigits(phone);
    if |phone| == 0 {
      assert c == "";
    }
    if |c| == 12 && c[..3] == "380" {
      assert c[..2] == "38" && c[2] == '0';
    }
    if |c| >= 2 && c[..2] == "38" && LocalNumberAt(c, 2) {
      assert c[..3] == c[..2] + [c[2]];
    }
  }

  const InvalidPhoneMessage := "Некоректний номер телефону"
  const CannotNormalizeMessage := "Неможливо нормалізувати номер телефону"

  /** `normalize_phone`: a valid phone becomes `+380` followed by its nine
      subscriber digits; an invalid one raises `ValueError`. */
  function NormalizePhone(phone: string): (r: Result<string, Exc>)
    ensures r.Failure? <==> !ValidatePhone(phone)
    ensures r.Failure? ==> r.error == ValueError(InvalidPhoneMessage)
    ensures r.Success? ==>
              var c := KeepDigits(phone);
              && |r.value| == 13 && r.value[..4] == "+380"
              && AllDigits(r.value[1..])
              && r.value[4..] == c[|c| - 9..]
  {
    if !ValidatePhone(phone) then Failure(ValueError(InvalidPhoneMessage))
    else
      var c := KeepDigits(phone);
      ValidPhoneDigits(phone);
      if StartsWith(c, "38") && |c| == 12 then
        assert c[..3] == "380";
        Success("+" + c)
      else if StartsWith(c, "0") && |c| == 10 then
        Success("+38" + c)
      else
        Failure(ValueError(CannotNormalizeMessage))
  }

  /** A normalised phone is valid and normalises to itself. */
  lemma NormalizeIdempotent(phone: string)
    requires NormalizePhone(phone).Success?
    ensures var p := NormalizePhone(phone).value;
            ValidatePhone(p) && NormalizePhone(p) == Success(p)
  {
    var p := NormalizePhone(phone).value;
    assert p == "+" + p[1..];
    KeepDigitsAppend("+", p[1..]);
    assert KeepDigits("+") == "";
    assert KeepDigits(p) == p[1..];
    ValidPhoneDigits(p);
    assert p[1..][..3] == "380";
  }

  // ---- Email ----

  predicate IsAlnum(c: char) {
    'a' <= c <= 'z' || 'A' <= c <= 'Z' || IsDigit(c)
  }

  /** `[a-zA-Z0-9_.+-]`. */
  predicate LocalChar(c: char) {
    IsAlnum(c) || c == '_' || c == '.' || c == '+' || c == '-'
  }

  /** `[a-zA-Z0-9-]`. */
  predicate DomainChar(c: char) {
    IsAlnum(c) || c == '-'
  }

  /** `[a-zA-Z0-9-.]`. */
  predicate SuffixChar(c: char) {
    IsAlnum(c) || c == '-' || c == '.'
  }

  predicate AllLocal(s: string) { forall k :: 0 <= k < |s| ==> LocalChar(s[k]) }
  predicate AllDomain(s: string) { forall k :: 0 <= k < |s| ==> DomainChar(s[k]) }
  predicate AllSuffix(s: string) { forall k :: 0 <= k < |s| ==> SuffixChar(s[k]) }

  /** `b` is `local@domain.suffix` with the `@` at `i`, the dot at `j` and
      every part non-empty and drawn from its class. */
  predicate EmailParts(b: string, i: int, j: int) {
    && 0 < i && i + 1 < j && j + 1 < |b|
    && b[i] == '@' && b[j] == '.'
    && AllLocal(b[..i]) && AllDomain(b[i + 1..j]) && AllSuffix(b[j + 1..])
  }

  /** `re.match(r'^[a-zA-Z0-9_.+-]+@[a-zA-Z0-9-]+\.[a-zA-Z0-9-.]+$', s)`:
      `$` matches at the end or just before a final newline. */
  ghost predicate EmailPattern(s: string) {
    || HasEmailParts(s)
    || (|s| > 0 && s[|s| - 1] == '\n' && HasEmailParts(s[..|s| - 1]))
  }

  ghost predicate HasEmailParts(b: string) {
    exists i, j :: EmailParts(b, i, j)
  }

  /** Position of the first `c` in `s` at or after `from`, if any. */
  function FindChar(s: string, c: char, from: nat): (r: Option<nat>)
    ensures r.Some? ==> from <= r.value < |s| && s[r.value] == c
                        && forall k :: from <= k < r.value ==> s[k] != c
    ensures r.None? ==> forall k :: from <= k < |s| ==> s[k] != c
    decreases |s| - from
  {
    if from >= |s| then None
    else if s[from] == c then Some(from)
    else FindChar(s, c, from + 1)
  }

  /** The split a successful match must use: the first `@`, then the first
      dot after it. */
  predicate EmailBody(b: string) {
    match FindChar(b, '@', 0)
    case None => false
    case Some(i) =>
      match FindChar(b, '.', i + 1)
      case None => false
      case Some(j) => EmailParts(b, i, j)
  }

  /** `validate_email`. */
  predicate ValidateEmail(email: string) {
    if |email| > 0 && email[|email| - 1] == '\n' then EmailBody(email[..|email| - 1])
    else EmailBody(email)
  }

  /** Neither the local part nor the domain can hold the character that
      ends it, so any split of a match is the one `EmailBody` tries. */
  lemma EmailBodyIff(b: string)
    ensures EmailBody(b) <==> HasEmailParts(b)
  {
    if HasEmailParts(b) {
      var i, j :| EmailParts(b, i, j);
      assert forall k :: 0 <= k < i ==> b[..i][k] == b[k];
      assert forall k :: i < k < j ==> b[i + 1..j][k - i - 1] == b[k];
      var fi := FindChar(b, '@', 0);
      assert fi == Some(i);
      var fj := FindChar(b, '.', i + 1);
      assert fj == Some(j);
    }
  }

  /** The hand matcher accepts exactly what the regular expression accepts. */
  lemma ValidateEmailIff(email: string)
    ensures ValidateEmail(email) <==> EmailPattern(email)
  {
    EmailBodyIff(email);
    if |email| > 0 && email[|email| - 1] == '\n' {
      var b := email[..|email| - 1];
      EmailBodyIff(b);
    }
  }

  // ---- Errors and parsing ----

  /** `input_error`: the text shown for an exception a handler raised. */
  function ErrorText(e: Exc): string {
    match e
    case ValueError(msg) => msg
    case KeyError(_) => "Contact not found."
    case IndexError => "Invalid command format. Please provide all required arguments."
    case OtherError(text) => "An error occurred: " + text
  }

  /** A handler wrapped by `input_error`: its reply, or the text of what it
      raised. */
  function InputError(r: Result<string, Exc>): (s: string)
    ensures r.Success? ==> s == r.value
    ensures r.Failure? && r.error.ValueError? ==> s == r.error.msg
    ensures r.Failure? && r.error.KeyError? ==> s == "Contact not found."
    ensures r.Failure? && r.error.IndexError? ==> s == "Invalid command format. Please provide all required arguments."
    ensures r.Failure? && r.error.OtherError? ==> s == "An error occurred: " + r.error.text
  {
    match r
    case Success(v) => v
    case Failure(e) => ErrorText(e)
  }

  const UnpackMessage := "not enough values to unpack (expected at least 1, got 0)"

  /** `parse_input`: `cmd, *args = text.split()`. The command is lowered and
      the arguments follow it in one flat tuple; blank input cannot be
      unpacked and raises `ValueError`. */
  function ParseInput(userInput: string): (r: Result<seq<string>, Exc>)
    ensures r.Failure? <==> AllSpace(userInput)
    ensures r.Failure? ==> r.error == ValueError(UnpackMessage)
    ensures r.Success? ==>
              var ws := Words(userInput);
              && |ws| > 0 && |r.value| == |ws| && r.value[0] == Lower(ws[0]) && r.value[1..] == ws[1..]
  {
    WordsEmptyIff(userInput);
    var ws := Words(userInput);
    if |ws| == 0 then Failure(ValueError(UnpackMessage))
    else
      StripNoSpaceEnds(ws[0]);
      Success([Lower(Strip(ws[0]))] + ws[1..])
  }

  /** A command line typed as words separated by single spaces parses back
      into the lowered command and the same arguments. */
  lemma ParseInputOfWords(cmd: string, args: seq<string>)
    requires |cmd| > 0 && NoSpace(cmd)
    requires forall k :: 0 <= k < |args| ==> |args[k]| > 0 && NoSpace(args[k])
    ensures ParseInput(Join([cmd] + args, " ")) == Success([Lower(cmd)] + args)
  {
    var ts := [cmd] + args;
    WordsOfJoin(ts);
    assert ts[1..] == args;
  }
}

=== FILE: dates.dfy ===
/** Calendar dates as Python's `datetime.date` sees them: the proleptic
    Gregorian calendar, compared field by field, subtracted through a day
    ordinal in which 1 January of year 1 is day 1, and written with the
    `%d.%m.%Y` format. */
module Dates {
  import opened Wrappers
  import opened Text

  datatype Ymd = Ymd(year: int, month: int, day: int)

  predicate IsLeap(y: int) {
    y % 4 == 0 && (y % 100 != 0 || y % 400 == 0)
  }

  function DaysInMonth(y: int, m: int): int
    requires 1 <= m <= 12
  {
    if m == 2 then (if IsLeap(y) then 29 else 28)
    else if m == 4 || m == 6 || m == 9 || m == 11 then 30
    else 31
  }

  predicate IsValid(d: Ymd) {
    1 <= d.year && 1 <= d.month <= 12 && 1 <= d.day <= DaysInMonth(d.year, d.month)
  }

  /** A date that exists in the calendar. Python's upper limit of year 9999
      is not imposed here; callers that format a date impose it. */
  type Date = d: Ymd | IsValid(d) witness Ymd(1, 1, 1)

  /** Python's `a < b` on dates: by year, then month, then day. */
  predicate Before(a: Ymd, b: Ymd) {
    a.year < b.year
    || (a.year == b.year && a.month < b.month)
    || (a.year == b.year && a.month == b.month && a.day < b.day)
  }

  // ---- Day ordinal ----

  function YearLength(y: int): int {
    if IsLeap(y) then 366 else 365
  }

  /** Days in the years before `y`, year by year. */
  function DaysBeforeYear(y: int): int
    requires y >= 1
    decreases y
  {
    if y == 1 then 0 else DaysBeforeYear(y - 1) + YearLength(y - 1)
  }

  /** Python's closed form `_days_before_year`. */
  function DaysBeforeYearClosed(y: int): int
    requires y >= 1
  {
    var p := y - 1;
    p * 365 + p / 4 - p / 100 + p / 400
  }

  /** Counting year by year agrees with the closed form. */
  lemma {:induction false} DaysBeforeYearIsClosed(y: int)
    requires y >= 1
    ensures DaysBeforeYear(y) == DaysBeforeYearClosed(y)
    decreases y
  {
    if y > 1 {
      DaysBeforeYearIsClosed(y - 1);
      ClosedStep(y - 1);
    }
  }

  /** The closed form grows by one year's length from one year to the next. */
  lemma ClosedStep(y: int)
    requires y >= 1
    ensures DaysBeforeYearClosed(y + 1) == DaysBeforeYearClosed(y) + YearLength(y)
  {
    var p := y - 1;
    DivStep(p);
    DivisorsNest(y);
    assert (p + 1) % 4 == y % 4 && (p + 1) % 100 == y % 100 && (p + 1) % 400 == y % 400;
  }

  /** A multiple of 400 is one of 100, and a multiple of 100 is one of 4. */
  lemma DivisorsNest(y: int)
    ensures y % 400 == 0 ==> y % 100 == 0
    ensures y % 100 == 0 ==> y % 4 == 0
  {
    if y % 400 == 0 {
      var m := 4 * (y / 400);
      assert y == 100 * m;
      MultipleMod(m);
    }
    if y % 100 == 0 {
      var m := 25 * (y / 100);
      assert y == 4 * m;
      MultipleMod(m);
    }
  }

  lemma MultipleMod(m: int)
    ensures (100 * m) % 100 == 0 && (4 * m) % 4 == 0
  {
  }

  /** Days in the months of `y` before month `m` (`_days_before_month`). */
  function DaysBeforeMonth(y: int, m: int): int
    requires 1 <= m <= 12
  {
    [0, 31, 59, 90, 120, 151, 181, 212, 243, 273, 304, 334][m - 1]
    + (if m > 2 && IsLeap(y) then 1 else 0)
  }

  function DayOfYear(d: Date): (n: int)
    ensures 1 <= n <= YearLength(d.year)
  {
    DaysBeforeMonth(d.year, d.month) + d.day
  }

  /** `date.toordinal()`. */
  function Ordinal(d: Date): int {
    DaysBeforeYear(d.year) + DayOfYear(d)
  }

  /** `(b - a).days`. */
  function DaysBetween(a: Date, b: Date): int {
    Ordinal(b) - Ordinal(a)
  }

  lemma DivStep(p: int)
    requires p >= 0
    ensures (p + 1) / 4 == p / 4 + (if (p + 1) % 4 == 0 then 1 else 0)
    ensures (p + 1) / 100 == p / 100 + (if (p + 1) % 100 == 0 then 1 else 0)
    ensures (p + 1) / 400 == p / 400 + (if (p + 1) % 400 == 0 then 1 else 0)
  {
  }

  /** A year adds exactly its own length to the ordinal. */
  lemma DaysBeforeYearStep(y: int)
    requires y >= 1
    ensures DaysBeforeYear(y + 1) == DaysBeforeYear(y) + YearLength(y)
  {
  }

  lemma {:induction false} DaysBeforeYearGrows(y1: int, y2: int)
    requires 1 <= y1 < y2
    ensures DaysBeforeYear(y1) + YearLength(y1) <= DaysBeforeYear(y2)
    decreases y2 - y1
  {
    DaysBeforeYearStep(y1);
    if y1 + 1 < y2 {
      DaysBeforeYearGrows(y1 + 1, y2);
    }
  }

  lemma MonthsAccumulate(y: int, m1: int, m2: int)
    requires 1 <= m1 < m2 <= 12
    ensures DaysBeforeMonth(y, m1) + DaysInMonth(y, m1) <= DaysBeforeMonth(y, m2)
  {
  }

  /** Python compares dates by their ordinals: date order and ordinal order
      agree, and so do date equality and ordinal equality. */
  lemma OrdinalOrder(a: Date, b: Date)
    ensures Before(a, b) <==> Ordinal(a) < Ordinal(b)
    ensures a == b <==> Ordinal(a) == Ordinal(b)
  {
    if a.year < b.year {
      DaysBeforeYearGrows(a.year, b.year);
    } else if b.year < a.year {
      DaysBeforeYearGrows(b.year, a.year);
    } else if a.month < b.month {
      MonthsAccumulate(a.year, a.month, b.month);
    } else if b.month < a.month {
      MonthsAccumulate(a.year, b.month, a.month);
    }
  }

  // ---- date.replace(year=...) ----

  /** `d.replace(year=y)`: `None` stands for the `ValueError` Python raises
      when the result would not be a calendar date. */
  function ReplaceYear(d: Date, y: int): (r: Option<Date>)
    requires y >= 1
    ensures r.None? <==> d.month == 2 && d.day == 29 && !IsLeap(y)
    ensures r.Some? ==> r.value == Ymd(y, d.month, d.day)
  {
    var c := Ymd(y, d.month, d.day);
    if IsValid(c) then Some(c) else None
  }

  // ---- %d.%m.%Y ----

  /** `d.strftime("%d.%m.%Y")`, the year zero-padded to four digits. */
  function Format(d: Date): (s: string)
    ensures d.year <= 9999 ==> |s| == 10
  {
    FixedDigits(d.day, 2) + "." + FixedDigits(d.month, 2) + "."
    + (if d.year <= 9999 then FixedDigits(d.year, 4) else NatToString(d.year))
  }

  predicate IsDateShape(s: string) {
    |s| == 10 && s[2] == '.' && s[5] == '.'
    && AllDigits(s[..2]) && AllDigits(s[3..5]) && AllDigits(s[6..])
  }

  /** Reads a strict `DD.MM.YYYY` text; `None` when the text has another
      shape or names a day the calendar does not have. */
  function Parse(s: string): (r: Option<Date>)
    ensures r.Some? ==> IsDateShape(s)
    ensures r.Some? ==> 1 <= r.value.year <= 9999
  {
    if !IsDateShape(s) then None
    else
      FixedDigitsOfValue(s[6..]);
      assert Pow10(4) == 10000;
      var c := Ymd(DigitsValue(s[6..]), DigitsValue(s[3..5]), DigitsValue(s[..2]));
      if IsValid(c) then Some(c) else None
  }

  /** Formatting a date of years 1..9999 and reading it back gives the date. */
  lemma ParseOfFormat(d: Date)
    requires d.year <= 9999
    ensures Parse(Format(d)) == Some(d)
  {
    var s := Format(d);
    var dd, mm, yy := FixedDigits(d.day, 2), FixedDigits(d.month, 2), FixedDigits(d.year, 4);
    assert s == dd + "." + mm + "." + yy;
    assert s[..2] == dd && s[3..5] == mm && s[6..] == yy;
    assert Pow10(2) == 100 && Pow10(4) == 10000;
    ValueOfFixedDigits(d.day, 2);
    ValueOfFixedDigits(d.month, 2);
    ValueOfFixedDigits(d.year, 4);
  }

  /** A text that reads as a date is exactly the formatting of that date. */
  lemma FormatOfParse(s: string)
    requires Parse(s).Some?
    ensures Format(Parse(s).value) == s
  {
    var d := Parse(s).value;
    FixedDigitsOfValue(s[..2]);
    FixedDigitsOfValue(s[3..5]);
    FixedDigitsOfValue(s[6..]);
    assert s == s[..2] + "." + s[3..5] + "." + s[6..];
  }
}

=== FILE: note.dfy ===
/** A single text note: title, content, tags and two ISO timestamps. The
    wall clock the Python class reads with `datetime.now().isoformat()` is
    the parameter `now`; every mutator returns the updated note. */
module Notes {
  import opened Wrappers
  import opened Errors
  import Text

  datatype Note = Note(
    title: string,
    content: string,
    tags: seq<string>,
    createdAt: string,
    updatedAt: string)

  predicate NoDup(ts: seq<string>) {
    forall i, j :: 0 <= i < j < |ts| ==> ts[i] != ts[j]
  }

  /** `Note(title, content, tags)`: a missing (or empty) tag list becomes
      the empty list, and both timestamps are the creation instant. */
  function NewNote(title: string, content: string, tags: Option<seq<string>>, now: string): (n: Note)
    ensures n.title == title && n.content == content
    ensures tags.None? ==> n.tags == []
    ensures tags.Some? ==> n.tags == tags.value
    ensures n.createdAt == now && n.updatedAt == now
  {
    Note(title, content, tags.GetOr([]), now, now)
  }

  /** `update_content`: new content, a fresh `updated_at`, nothing else. */
  function UpdateContent(n: Note, newContent: string, now: string): (r: Note)
    ensures r.content == newContent && r.updatedAt == now
    ensures r.(content := n.content, updatedAt := n.updatedAt) == n
  {
    n.(content := newContent, updatedAt := now)
  }

  /** `add_tag`: appends a tag the note does not carry yet and bumps
      `updated_at`; a tag already present changes nothing. */
  function AddTag(n: Note, tag: string, now: string): (r: Note)
    ensures tag in r.tags
    ensures tag in n.tags ==> r == n
    ensures tag !in n.tags ==> r.tags == n.tags + [tag] && r.updatedAt == now
    ensures r.(tags := n.tags, updatedAt := n.updatedAt) == n
    ensures NoDup(n.tags) ==> NoDup(r.tags)
  {
    if tag in n.tags then n
    else n.(tags := n.tags + [tag], updatedAt := now)
  }

  /** Position of the first occurrence of `t` in `ts`. */
  function FirstIndex(ts: seq<string>, t: string): (i: nat)
    requires t in ts
    ensures i < |ts| && ts[i] == t
    ensures forall j :: 0 <= j < i ==> ts[j] != t
    decreases |ts|
  {
    if ts[0] == t then 0 else 1 + FirstIndex(ts[1..], t)
  }

  /** `list.remove`: drops the first occurrence only. */
  function RemoveFirst(ts: seq<string>, t: string): (r: seq<string>)
    requires t in ts
    ensures |r| == |ts| - 1
    ensures multiset(r) == multiset(ts) - multiset{t}
    ensures var i := FirstIndex(ts, t);
            r[..i] == ts[..i] && forall j :: i <= j < |r| ==> r[j] == ts[j + 1]
  {
    var i := FirstIndex(ts, t);
    DropAt(ts, i);
    ts[..i] + ts[i + 1..]
  }

  /** Dropping the element at `i` takes one copy of it out of the multiset
      and shifts the later elements down by one. */
  lemma DropAt(ts: seq<string>, i: nat)
    requires i < |ts|
    ensures var r := ts[..i] + ts[i + 1..];
            && |r| == |ts| - 1
            && multiset(r) == multiset(ts) - multiset{ts[i]}
            && r[..i] == ts[..i]
            && forall j :: i <= j < |r| ==> r[j] == ts[j + 1]
  {
    var a, b := ts[..i], ts[i + 1..];
    assert ts == a + [ts[i]] + b;
    assert multiset(ts) == multiset(a) + multiset{ts[i]} + multiset(b);
    assert (a + b)[..i] == a;
  }

  /** `remove_tag`: drops the first occurrence of a present tag and bumps
      `updated_at`; an absent tag changes nothing. */
  function RemoveTag(n: Note, tag: string, now: string): (r: Note)
    ensures tag !in n.tags ==> r == n
    ensures tag in n.tags ==> r.tags == RemoveFirst(n.tags, tag)
                              && multiset(r.tags) == multiset(n.tags) - multiset{tag}
                              && r.updatedAt == now
    ensures r.(tags := n.tags, updatedAt := n.updatedAt) == n
    ensures NoDup(n.tags) ==> NoDup(r.tags) && tag !in r.tags
  {
    if tag in n.tags then
      var ts := RemoveFirst(n.tags, tag);
      RemoveKeepsDistinct(n.tags, tag);
      n.(tags := ts, updatedAt := now)
    else n
  }

  lemma RemoveKeepsDistinct(ts: seq<string>, t: string)
    requires t in ts
    ensures NoDup(ts) ==> NoDup(RemoveFirst(ts, t)) && t !in RemoveFirst(ts, t)
  {
    if NoDup(ts) {
      var i := FirstIndex(ts, t);
      var r := RemoveFirst(ts, t);
      assert forall j :: 0 <= j < |r| ==> r[j] == ts[if j < i then j else j + 1];
    }
  }

  /** Adding a tag the note lacks and then removing it gives back the old
      tag list. */
  lemma RemoveUndoesAdd(n: Note, tag: string, t1: string, t2: string)
    requires tag !in n.tags
    ensures RemoveTag(AddTag(n, tag, t1), tag, t2).tags == n.tags
  {
    var ts := n.tags + [tag];
    assert forall j :: 0 <= j < |n.tags| ==> ts[j] == n.tags[j];
    assert ts[..|n.tags|] == n.tags;
  }

  // ---- Serialisation ----

  /** The JSON object of one note. `None` is a key that is absent; a `tags`
      key holding `null` reads like an absent one, so it is `None` too. */
  datatype NoteDict = NoteDict(
    title: Option<string>,
    content: Option<string>,
    tags: Option<seq<string>>,
    createdAt: Option<string>,
    updatedAt: Option<string>)

  /** `to_dict`. */
  function ToDict(n: Note): (d: NoteDict)
    ensures d.title == Some(n.title) && d.content == Some(n.content)
    ensures d.tags == Some(n.tags)
    ensures d.createdAt == Some(n.createdAt) && d.updatedAt == Some(n.updatedAt)
  {
    NoteDict(Some(n.title), Some(n.content), Some(n.tags), Some(n.createdAt), Some(n.updatedAt))
  }

  /** `from_dict`: `title` and `content` are required (a missing one raises
      `KeyError`, `title` checked first); missing tags become the empty
      list; a missing timestamp is the load instant `now`. */
  function FromDict(d: NoteDict, now: string): (r: Result<Note, Exc>)
    ensures r.Failure? <==> d.title.None? || d.content.None?
    ensures d.title.None? ==> r == Failure(KeyError("title"))
    ensures d.title.Some? && d.content.None? ==> r == Failure(KeyError("content"))
    ensures r.Success? ==>
              && r.value.title == d.title.value && r.value.content == d.content.value
              && r.value.tags == (if d.tags.Some? then d.tags.value else [])
              && r.value.createdAt == (if d.createdAt.Some? then d.createdAt.value else now)
              && r.value.updatedAt == (if d.updatedAt.Some? then d.updatedAt.value else now)
  {
    if d.title.None? then Failure(KeyError("title"))
    else if d.content.None? then Failure(KeyError("content"))
    else
      var n := NewNote(d.title.value, d.content.value, d.tags, now);
      Success(n.(createdAt := d.createdAt.GetOr(n.createdAt),
                 updatedAt := d.updatedAt.GetOr(n.updatedAt)))
  }

  /** A saved note loads back unchanged, whatever the clock says. */
  lemma FromDictOfToDict(n: Note, now: string)
    ensures FromDict(ToDict(n), now) == Success(n)
  {
  }

  // ---- Display ----

  const Memo := "\U{1F4DD} "
  const Calendar := "\n\U{1F4C5} Created: "

  /** `s[:k]`. */
  function Take(s: string, k: nat): (r: string)
    ensures |r| == if |s| < k then |s| else k
    ensures r == s[..|r|]
  {
    if |s| <= k then s else s[..k]
  }

  function TagsSuffix(tags: seq<string>): (r: string)
    ensures tags == [] <==> r == ""
  {
    if tags == [] then "" else " [Tags: " + Text.Join(tags, ", ") + "]"
  }

  /** `__str__`: the memo line with title and tags, the content, and the
      date part (first ten characters) of `created_at`. */
  function Show(n: Note): (r: string)
    ensures r == Memo + n.title + TagsSuffix(n.tags) + "\n" + n.content + Calendar + Take(n.createdAt, 10)
  {
    var head := Memo + n.title + TagsSuffix(n.tags) + "\n";
    var tail := Calendar + Take(n.createdAt, 10);
    head + n.content + tail
  }
}

=== FILE: note_commands.dfy ===
/** The note commands of `assistant/notes/commands.py`: the argument words
    after the command name and the notebook in, the reply (and the updated
    notebook, for the commands that change it) out. `now` is the clock the
    notebook stamps notes with. */
module NoteCommands {
  import opened Wrappers
  import opened Text
  import opened Store
  import opened Notes
  import opened Notebooks

  const AddUsage := "Error: Please provide both title and content.\nUsage: add-note <title> <content>"
  const EditUsage := "Error: Please provide both title and new content.\nUsage: edit-note <title> <new_content>"
  const DeleteUsage := "Error: Please provide the note title.\nUsage: delete-note <title>"
  const SearchUsage := "Error: Please provide a search keyword.\nUsage: search-note <keyword>"

  /** `add_note`: the first word is the title and the remaining words,
      joined by spaces, are the content of a fresh, untagged note; a title
      in use is refused. */
  function AddNoteCmd(args: seq<string>, nb: Notebook, now: string): (res: (Notebook, string))
    ensures |args| < 2 ==> res == (nb, AddUsage)
    ensures |args| >= 2 && args[0] in Keys(nb) ==> res == (nb, AlreadyExists(args[0]))
    ensures |args| >= 2 && args[0] !in Keys(nb) ==>
              && Keys(res.0) == Keys(nb) + [args[0]]
              && GetNote(res.0, args[0]) == Some(Note(args[0], Join(args[1..], " "), [], now, now))
              && res.1 == "Note '" + args[0] + "' added successfully."
    ensures forall k :: (|args| == 0 || k != args[0]) ==> Get(res.0, k) == Get(nb, k)
  {
    if |args| < 2 then (nb, AddUsage)
    else
      var res := AddNote(nb, args[0], Join(args[1..], " "), None, now);
      assert args[0] !in Keys(nb) ==> Keys(res.0) == Keys(nb) + [args[0]] by {
        if args[0] !in Keys(nb) {
          assert Keys(res.0)[..|nb|] == Keys(nb);
        }
      }
      res
  }

  /** A note added from separate words keeps those words as its content. */
  lemma AddedContentWords(args: seq<string>, nb: Notebook, now: string)
    requires |args| >= 2 && args[0] !in Keys(nb)
    requires forall k :: 1 <= k < |args| ==> |args[k]| > 0 && NoSpace(args[k])
    ensures var n := GetNote(AddNoteCmd(args, nb, now).0, args[0]);
            n.Some? && Words(n.value.content) == args[1..] && n.value.tags == []
  {
    WordsOfJoin(args[1..]);
  }

  /** `edit_note`: the remaining words, joined by spaces, become the
      content of the note titled by the first word, which is stamped with
      `now`; an unknown title is reported. */
  function EditNoteCmd(args: seq<string>, nb: Notebook, now: string): (res: (Notebook, string))
    ensures |args| < 2 ==> res == (nb, EditUsage)
    ensures |args| >= 2 && args[0] !in Keys(nb) ==> res == (nb, NotFound(args[0]))
    ensures |args| >= 2 && args[0] in Keys(nb) ==>
              && Keys(res.0) == Keys(nb)
              && GetNote(res.0, args[0]) == Some(GetNote(nb, args[0]).value.(content := Join(args[1..], " "), updatedAt := now))
              && res.1 == "Note '" + args[0] + "' updated successfully."
    ensures forall k :: (|args| == 0 || k != args[0]) ==> Get(res.0, k) == Get(nb, k)
  {
    if |args| < 2 then (nb, EditUsage)
    else EditNote(nb, args[0], Join(args[1..], " "), now)
  }

  /** `delete_note`: the first word is the title; any further words are
      ignored. */
  function DeleteNoteCmd(args: seq<string>, nb: Notebook): (res: (Notebook, string))
    ensures |args| < 1 ==> res == (nb, DeleteUsage)
    ensures |args| >= 1 && args[0] !in Keys(nb) ==> res == (nb, NotFound(args[0]))
    ensures |args| >= 1 && args[0] in Keys(nb) ==>
              && |res.0| == |nb| - 1
              && DropsFirst(nb, args[0], res.0)
              && (UniqueKeys(nb) ==> GetNote(res.0, args[0]).None?)
              && res.1 == "Note '" + args[0] + "' deleted successfully."
    ensures forall k :: (|args| == 0 || k != args[0]) ==> Get(res.0, k) == Get(nb, k)
  {
    if |args| < 1 then (nb, DeleteUsage)
    else DeleteNote(nb, args[0])
  }

  // ---- Listings ----

  const Rule := Repeat('=', 70)
  const Dash := Repeat('-', 70)

  /** The text of every note, in order. */
  function Shows(ns: seq<Note>): (ts: seq<string>)
    ensures |ts| == |ns| && forall i :: 0 <= i < |ns| ==> ts[i] == Show(ns[i])
  {
    seq(|ns|, i requires 0 <= i < |ns| => Show(ns[i]))
  }

  /** The lines after the header and the rule: each text after a line
      break, then a dashed line. */
  function NoteLines(texts: seq<string>, dash: string): (ls: seq<string>)
    ensures |ls| == 2 * |texts|
    decreases |texts|
  {
    if |texts| == 0 then []
    else NoteLines(texts[..|texts| - 1], dash) + ["\n" + texts[|texts| - 1], dash]
  }

  /** The same listing body, built block by block. */
  function NoteBlocks(texts: seq<string>, dash: string): string
    decreases |texts|
  {
    if |texts| == 0 then ""
    else NoteBlocks(texts[..|texts| - 1], dash) + "\n\n" + texts[|texts| - 1] + "\n" + dash
  }

  /** `"\n".join(result)` of a listing. */
  function Listing(header: string, ns: seq<Note>): string {
    Join([header, Rule] + NoteLines(Shows(ns), Dash), "\n")
  }

  /** A listing is its header, a line break, the rule, then for every
      text a blank line, the text, a line break and a dashed line. */
  lemma {:induction false} ListingLayout(header: string, rule: string, texts: seq<string>, dash: string)
    ensures Join([header, rule] + NoteLines(texts, dash), "\n") == header + "\n" + rule + NoteBlocks(texts, dash)
    decreases |texts|
  {
    if |texts| == 0 {
      assert [header, rule] + NoteLines(texts, dash) == [header, rule];
      assert [header, rule][1..] == [rule];
      assert header + "\n" + rule + "" == header + "\n" + rule;
    } else {
      var init := texts[..|texts| - 1];
      var t := texts[|texts| - 1];
      ListingLayout(header, rule, init, dash);
      var a := [header, rule] + NoteLines(init, dash);
      var b := ["\n" + t, dash];
      assert [header, rule] + NoteLines(texts, dash) == a + b;
      JoinAppend(a, b, "\n");
      assert b[1..] == [dash];
      assert Join(b, "\n") == "\n" + t + "\n" + dash;
    }
  }

  function FoundHeader(keyword: string, count: nat): string {
    "Found " + NatToString(count) + " note(s) containing '" + keyword + "':\n"
  }

  /** `search_notes`: the first word is the keyword; the matching notes are
      listed under a header that counts them. */
  function SearchNotesCmd(args: seq<string>, nb: Notebook): (s: string)
    ensures |args| < 1 ==> s == SearchUsage
    ensures |args| >= 1 ==>
              var ms := SearchNotes(nb, args[0]);
              && (|ms| == 0 ==> s == "No notes found containing '" + args[0] + "'.")
              && (|ms| > 0 ==> s == FoundHeader(args[0], |ms|) + "\n" + Rule + NoteBlocks(Shows(ms), Dash))
  {
    if |args| < 1 then SearchUsage
    else
      var keyword := args[0];
      var ms := SearchNotes(nb, keyword);
      if |ms| == 0 then "No notes found containing '" + keyword + "'."
      else
        ListingLayout(FoundHeader(keyword, |ms|), Rule, Shows(ms), Dash);
        Listing(FoundHeader(keyword, |ms|), ms)
  }

  /** `show_all_notes`: every note, in notebook order, under a header that
      counts them; the arguments are ignored. */
  function ShowAllNotes(args: seq<string>, nb: Notebook): (s: string)
    ensures |nb| == 0 ==> s == "No notes found. Add your first note with: add-note <title> <content>"
    ensures |nb| > 0 ==>
              s == "All Notes (" + NatToString(|nb|) + " total):\n" + "\n" + Rule + NoteBlocks(Shows(GetAllNotes(nb)), Dash)
  {
    var ns := GetAllNotes(nb);
    if |ns| == 0 then "No notes found. Add your first note with: add-note <title> <content>"
    else
      var header := "All Notes (" + NatToString(|ns|) + " total):\n";
      ListingLayout(header, Rule, Shows(ns), Dash);
      Listing(header, ns)
  }
}

=== FILE: notebook.dfy ===
/** The notebook: notes filed under their titles in insertion order (the
    Python dict `notes`). Operations that mutate the dict return the new
    notebook together with the message the Python method returns. */
module Notebooks {
  import opened Wrappers
  import opened Errors
  import opened Store
  import opened Notes
  import Text

  type Notebook = Entries<Note>

  /** Every note sits under its own title, as `add_note` files it. */
  predicate TitlesMatch(nb: Notebook) {
    forall i :: 0 <= i < |nb| ==> nb[i].0 == nb[i].1.title
  }

  function AlreadyExists(title: string): string {
    "Note with title '" + title + "' already exists."
  }

  function NotFound(title: string): string {
    "Note '" + title + "' not found."
  }

  /** `add_note`: a title already in use is refused; otherwise a fresh note
      is appended under its title. */
  function AddNote(nb: Notebook, title: string, content: string, tags: Option<seq<string>>,
                   now: string): (res: (Notebook, string))
    ensures title in Keys(nb) ==> res == (nb, AlreadyExists(title))
    ensures title !in Keys(nb) ==>
              && res.0 == nb + [(title, NewNote(title, content, tags, now))]
              && res.1 == "Note '" + title + "' added successfully."
    ensures title !in Keys(nb) ==> Get(res.0, title) == Some(NewNote(title, content, tags, now))
    ensures forall k :: k != title ==> Get(res.0, k) == Get(nb, k)
    ensures UniqueKeys(nb) ==> UniqueKeys(res.0)
    ensures TitlesMatch(nb) ==> TitlesMatch(res.0)
  {
    if title in Keys(nb) then (nb, AlreadyExists(title))
    else
      var nb' := Put(nb, title, NewNote(title, content, tags, now));
      assert nb' == nb + [(title, NewNote(title, content, tags, now))] by {
        assert IndexOf(nb, title).None?;
      }
      (nb', "Note '" + title + "' added successfully.")
  }

  /** `get_note`. */
  function GetNote(nb: Notebook, title: string): (r: Option<Note>)
    ensures r.None? <==> title !in Keys(nb)
    ensures r.Some? ==> (title, r.value) in nb
    ensures TitlesMatch(nb) && r.Some? ==> r.value.title == title
  {
    Get(nb, title)
  }

  /** `edit_note`: replaces the content of the note under `title` and bumps
      its `updated_at`; the position of the note and every other note stay. */
  function EditNote(nb: Notebook, title: string, newContent: string, now: string): (res: (Notebook, string))
    ensures title !in Keys(nb) ==> res == (nb, NotFound(title))
    ensures title in Keys(nb) ==>
              && Get(res.0, title) == Some(UpdateContent(Get(nb, title).value, newContent, now))
              && Keys(res.0) == Keys(nb)
              && res.1 == "Note '" + title + "' updated successfully."
    ensures forall k :: k != title ==> Get(res.0, k) == Get(nb, k)
    ensures UniqueKeys(nb) ==> UniqueKeys(res.0)
  {
    match Get(nb, title)
    case None => (nb, NotFound(title))
    case Some(n) =>
      (Put(nb, title, UpdateContent(n, newContent, now)), "Note '" + title + "' updated successfully.")
  }

  /** `delete_note`. */
  function DeleteNote(nb: Notebook, title: string): (res: (Notebook, string))
    ensures title !in Keys(nb) ==> res == (nb, NotFound(title))
    ensures title in Keys(nb) ==>
              && |res.0| == |nb| - 1
              && DropsFirst(nb, title, res.0)
              && res.1 == "Note '" + title + "' deleted successfully."
    ensures UniqueKeys(nb) ==> Get(res.0, title).None?
    ensures forall k :: k != title ==> Get(res.0, k) == Get(nb, k)
    ensures UniqueKeys(nb) ==> UniqueKeys(res.0)
  {
    if title !in Keys(nb) then (nb, NotFound(title))
    else (Remove(nb, title), "Note '" + title + "' deleted successfully.")
  }

  // ---- Search ----

  /** The keyword occurs, ignoring ASCII case, in the title or the content. */
  predicate Matches(n: Note, keyword: string) {
    var kw := Text.Lower(keyword);
    Text.Contains(Text.Lower(n.title), kw) || Text.Contains(Text.Lower(n.content), kw)
  }

  /** `search_notes`: the matching notes, in notebook order. */
  function SearchNotes(nb: Notebook, keyword: string): (r: seq<Note>)
    ensures |r| <= |nb|
    ensures forall n :: n in r ==> Matches(n, keyword) && n in Values(nb)
    ensures forall i :: 0 <= i < |nb| && Matches(nb[i].1, keyword) ==> nb[i].1 in r
    decreases |nb|
  {
    if |nb| == 0 then []
    else
      var init := nb[..|nb| - 1];
      var n := nb[|nb| - 1].1;
      assert Values(nb) == Values(init) + [n];
      assert forall i :: 0 <= i < |init| ==> init[i] == nb[i];
      SearchNotes(init, keyword) + (if Matches(n, keyword) then [n] else [])
  }

  /** The search keeps exactly the matching notes in notebook order: it is
      the ordered selection of the matching entries. */
  lemma {:induction false} SearchIsSelect(nb: Notebook, keyword: string)
    ensures SearchNotes(nb, keyword) == Select(nb, (n: Note) => Matches(n, keyword))
    decreases |nb|
  {
    if |nb| > 0 {
      SearchIsSelect(nb[..|nb| - 1], keyword);
      SelectStep(nb, (n: Note) => Matches(n, keyword));
    }
  }

  /** Searching is blind to the case of the keyword. */
  lemma {:induction false} SearchIgnoresKeywordCase(nb: Notebook, keyword: string)
    ensures SearchNotes(nb, Text.Lower(keyword)) == SearchNotes(nb, keyword)
    decreases |nb|
  {
    Text.LowerIdempotent(keyword);
    if |nb| > 0 {
      SearchIgnoresKeywordCase(nb[..|nb| - 1], keyword);
    }
  }

  /** The empty keyword occurs everywhere, so it finds every note. */
  lemma {:induction false} EmptyKeywordFindsAll(nb: Notebook)
    ensures SearchNotes(nb, "") == Values(nb)
    decreases |nb|
  {
    if |nb| > 0 {
      var init := nb[..|nb| - 1];
      EmptyKeywordFindsAll(init);
      assert Values(nb) == Values(init) + [nb[|nb| - 1].1];
      assert Text.StartsWith(Text.Lower(nb[|nb| - 1].1.title), "");
    }
  }

  /** A note just added is found by its own title. */
  lemma AddedNoteFoundByTitle(nb: Notebook, title: string, content: string,
                              tags: Option<seq<string>>, now: string)
    requires title !in Keys(nb)
    ensures NewNote(title, content, tags, now) in SearchNotes(AddNote(nb, title, content, tags, now).0, title)
  {
    var nb' := AddNote(nb, title, content, tags, now).0;
    var l := Text.Lower(title);
    assert Text.StartsWith(l, l);
    assert nb'[|nb'| - 1].1 == NewNote(title, content, tags, now);
  }

  /** `get_all_notes`. */
  function GetAllNotes(nb: Notebook): (r: seq<Note>)
    ensures |r| == |nb| && forall i :: 0 <= i < |nb| ==> r[i] == nb[i].1
  {
    Values(nb)
  }

  /** `__len__`: the number of titles. */
  function Len(nb: Notebook): (n: nat)
    ensures |KeySet(nb)| <= n
    ensures UniqueKeys(nb) ==> n == |KeySet(nb)|
  {
    CountIsKeyCount(nb);
    |nb|
  }

  // ---- Serialisation ----

  /** `to_dict`: title to note object, in notebook order. */
  function ToDict(nb: Notebook): (d: Entries<NoteDict>)
    ensures Keys(d) == Keys(nb)
    ensures forall i :: 0 <= i < |nb| ==> d[i].1 == Notes.ToDict(nb[i].1)
  {
    MapValues(nb, Notes.ToDict)
  }

  /** `from_dict`: every entry is read with `Note.from_dict`, keeping the
      dict's keys; the first entry that cannot be read raises. */
  function FromDict(d: Entries<NoteDict>, now: string): (r: Result<Notebook, Exc>)
    ensures r.Success? ==> Keys(r.value) == Keys(d)
    ensures r.Success? ==> forall i :: 0 <= i < |d| ==> Notes.FromDict(d[i].1, now) == Success(r.value[i].1)
    ensures r.Failure? <==> exists i :: 0 <= i < |d| && Notes.FromDict(d[i].1, now).Failure?
    decreases |d|
  {
    if |d| == 0 then Success([])
    else
      var init := d[..|d| - 1];
      assert forall i :: 0 <= i < |init| ==> init[i] == d[i];
      assert Keys(d) == Keys(init) + [d[|d| - 1].0];
      match FromDict(init, now)
      case Failure(e) => Failure(e)
      case Success(nb) =>
        match Notes.FromDict(d[|d| - 1].1, now)
        case Failure(e) => Failure(e)
        case Success(n) =>
          var r := nb + [(d[|d| - 1].0, n)];
          assert Keys(r) == Keys(nb) + [d[|d| - 1].0];
          Success(r)
  }

  /** A saved notebook loads back unchanged. */
  lemma FromDictOfToDict(nb: Notebook, now: string)
    ensures FromDict(ToDict(nb), now) == Success(nb)
  {
    var d := ToDict(nb);
    forall i | 0 <= i < |nb|
      ensures Notes.FromDict(d[i].1, now) == Success(nb[i].1)
    {
      Notes.FromDictOfToDict(nb[i].1, now);
    }
    assert FromDict(d, now).Success?;
    var r := FromDict(d, now).value;
    assert |Keys(r)| == |Keys(nb)|;
    forall i | 0 <= i < |nb|
      ensures r[i] == nb[i]
    {
      assert Keys(r)[i] == Keys(nb)[i];
    }
    assert r == nb;
  }
}

=== FILE: record.dfy ===
/** One contact: a name, an ordered list of phones, and at most one
    birthday, email and address. Mutating methods of the Python class become
    functions that return the updated record; a raised `ValueError` becomes a
    `Failure` and leaves the caller's record as it was. */
module Records {
  import opened Wrappers
  import opened Errors
  import opened ContactFields
  import Dates

  datatype Record = Record(
    name: Name,
    phones: seq<Phone>,
    birthday: Option<Birthday>,
    email: Option<Email>,
    address: Option<Address>)

  /** `Record(name)`: the given name and nothing else. */
  function NewRecord(name: string): (r: Record)
    ensures r.name.value == name && r.phones == []
    ensures r.birthday.None? && r.email.None? && r.address.None?
  {
    Record(Name(name), [], None, None, None)
  }

  // ---- Phones ----

  function PhoneValues(r: Record): seq<string> {
    seq(|r.phones|, i requires 0 <= i < |r.phones| => r.phones[i].value)
  }

  /** `add_phone`: one more phone at the end; duplicates are kept. */
  function AddPhone(r: Record, phone: string): (r': Record)
    ensures |r'.phones| == |r.phones| + 1
    ensures r'.phones[..|r.phones|] == r.phones && r'.phones[|r.phones|].value == phone
    ensures r'.(phones := r.phones) == r
  {
    r.(phones := r.phones + [Phone(phone)])
  }

  /** `find_phone`: the position of the first phone whose value is `phone`
      (the position of the object the Python method returns). */
  function FindPhone(r: Record, phone: string): (i: Option<nat>)
    ensures i.Some? ==> i.value < |r.phones| && r.phones[i.value].value == phone
                        && forall j :: 0 <= j < i.value ==> r.phones[j].value != phone
    ensures i.None? <==> forall j :: 0 <= j < |r.phones| ==> r.phones[j].value != phone
  {
    FindIn(r.phones, phone)
  }

  function FindIn(ps: seq<Phone>, phone: string): (i: Option<nat>)
    ensures i.Some? ==> i.value < |ps| && ps[i.value].value == phone
                        && forall j :: 0 <= j < i.value ==> ps[j].value != phone
    ensures i.None? ==> forall j :: 0 <= j < |ps| ==> ps[j].value != phone
    decreases |ps|
  {
    if |ps| == 0 then None
    else if ps[0].value == phone then Some(0)
    else match FindIn(ps[1..], phone)
      case None => None
      case Some(i) => Some(i + 1)
  }

  function PhoneNotFound(phone: string): Exc {
    ValueError("Phone number " + phone + " not found")
  }

  /** `remove_phone`: drops the first phone equal to `phone`, keeping the
      order of the others; raises when no phone matches. */
  function RemovePhone(r: Record, phone: string): (res: Result<Record, Exc>)
    ensures res.Failure? <==> FindPhone(r, phone).None?
    ensures res.Failure? ==> res.error == PhoneNotFound(phone)
    ensures res.Success? ==>
              var i := FindPhone(r, phone).value;
              var ps := res.value.phones;
              && |ps| == |r.phones| - 1
              && ps[..i] == r.phones[..i]
              && (forall j :: i <= j < |ps| ==> ps[j] == r.phones[j + 1])
              && multiset(ps) == multiset(r.phones) - multiset{Phone(phone)}
              && res.value.(phones := r.phones) == r
  {
    match FindPhone(r, phone)
    case None => Failure(PhoneNotFound(phone))
    case Some(i) =>
      var ps := r.phones[..i] + r.phones[i + 1..];
      assert r.phones == r.phones[..i] + [r.phones[i]] + r.phones[i + 1..];
      Success(r.(phones := ps))
  }

  /** `edit_phone`: the first phone equal to `oldPhone` takes the value `newPhone` in
      place; raises when no phone matches. */
  function EditPhone(r: Record, oldPhone: string, newPhone: string): (res: Result<Record, Exc>)
    ensures res.Failure? <==> FindPhone(r, oldPhone).None?
    ensures res.Failure? ==> res.error == PhoneNotFound(oldPhone)
    ensures res.Success? ==>
              var i := FindPhone(r, oldPhone).value;
              var ps := res.value.phones;
              && |ps| == |r.phones|
              && ps[i] == Phone(newPhone)
              && (forall j :: 0 <= j < |ps| && j != i ==> ps[j] == r.phones[j])
              && res.value.(phones := r.phones) == r
  {
    match FindPhone(r, oldPhone)
    case None => Failure(PhoneNotFound(oldPhone))
    case Some(i) => Success(r.(phones := r.phones[i := Phone(newPhone)]))
  }

  // ---- Single-slot fields ----

  /** `add_birthday`: the birthday slot takes the parsed date; the text must
      read as `DD.MM.YYYY`. */
  function AddBirthday(r: Record, text: string): (res: Result<Record, Exc>)
    ensures res.Failure? <==> Dates.Parse(text).None?
    ensures res.Failure? ==> res.error == ValueError(BirthdayFormatError)
    ensures res.Success? ==> res.value.birthday.Some?
                             && FormatBirthday(res.value.birthday.value) == text
                             && res.value.(birthday := r.birthday) == r
  {
    match ParseBirthday(text)
    case Failure(e) => Failure(e)
    case Success(b) => Success(r.(birthday := Some(b)))
  }

  /** `add_email`: overwrites the email slot only. */
  function AddEmail(r: Record, email: string): (r': Record)
    ensures r'.email == Some(Email(email)) && r'.(email := r.email) == r
  {
    r.(email := Some(Email(email)))
  }

  /** `add_address`: overwrites the address slot only. */
  function AddAddress(r: Record, address: string): (r': Record)
    ensures r'.address == Some(Address(address)) && r'.(address := r.address) == r
  {
    r.(address := Some(Address(address)))
  }

  // ---- Next birthday ----

  /** The birthday's month and day in year `y`: `replace(year=y)`, or
      28 February of `y` when that raises (a 29 February birthday in a
      common year). */
  function OccurrenceIn(bd: Dates.Date, y: int): (d: Dates.Date)
    requires y >= 1
    ensures d.year == y
    ensures !(bd.month == 2 && bd.day == 29 && !Dates.IsLeap(y)) ==> d.month == bd.month && d.day == bd.day
    ensures bd.month == 2 && bd.day == 29 && !Dates.IsLeap(y) ==> d.month == 2 && d.day == 28
  {
    match Dates.ReplaceYear(bd, y)
    case Some(c) => c
    case None => Dates.Ymd(y, 2, 28)
  }

  /** The occurrence in today's year, or in the next year when that one is
      already past. */
  function NextBirthday(bd: Dates.Date, today: Dates.Date): (d: Dates.Date)
    ensures !Dates.Before(d, today)
    ensures d.year == today.year || d.year == today.year + 1
    ensures d.month == bd.month
    ensures d.day == bd.day || (bd.month == 2 && bd.day == 29 && !Dates.IsLeap(d.year) && d.day == 28)
    ensures d == OccurrenceIn(bd, d.year)
    ensures forall y :: y >= 1 && !Dates.Before(OccurrenceIn(bd, y), today) ==>
                          !Dates.Before(OccurrenceIn(bd, y), d)
  {
    var c := OccurrenceIn(bd, today.year);
    if Dates.Before(c, today) then OccurrenceIn(bd, today.year + 1) else c
  }

  /** From one year's occurrence to the next, the day of the year moves by
      at most one day: later by at most one after a common year, earlier
      by at most one after a leap year, and in no other way. */
  lemma OccurrenceShift(bd: Dates.Date, y: int)
    requires y >= 1
    ensures Dates.DayOfYear(OccurrenceIn(bd, y + 1))
            <= Dates.DayOfYear(OccurrenceIn(bd, y)) + (if Dates.IsLeap(y) then 0 else 1)
    ensures Dates.DayOfYear(OccurrenceIn(bd, y + 1))
            >= Dates.DayOfYear(OccurrenceIn(bd, y)) - (if Dates.IsLeap(y) then 1 else 0)
  {
  }

  /** The next birthday is between 0 and 365 days away. */
  lemma NextBirthdayWithinAYear(bd: Dates.Date, today: Dates.Date)
    ensures 0 <= Dates.DaysBetween(today, NextBirthday(bd, today)) <= 365
  {
    var y := today.year;
    var c := OccurrenceIn(bd, y);
    var n := NextBirthday(bd, today);
    Dates.OrdinalOrder(c, today);
    if Dates.Before(c, today) {
      Dates.DaysBeforeYearStep(y);
      OccurrenceShift(bd, y);
    }
  }

  /** `days_to_birthday`, with today's date passed in: `None` without a
      birthday, otherwise the days until its next occurrence. */
  function DaysToBirthday(r: Record, today: Dates.Date): (n: Option<int>)
    ensures n.None? <==> r.birthday.None?
    ensures n.Some? ==> 0 <= n.value <= 365
    ensures n.Some? ==> n.value == Dates.DaysBetween(today, NextBirthday(r.birthday.value.value, today))
  {
    match r.birthday
    case None => None
    case Some(b) =>
      NextBirthdayWithinAYear(b.value, today);
      Some(Dates.DaysBetween(today, NextBirthday(b.value, today)))
  }

  // ---- Serialisation ----

  /** The JSON object of a record; `None` is a missing key or `null`.
      `legacyName` is the capitalised `"Name"` key older files used. */
  datatype RecordDict = RecordDict(
    name: Option<string>,
    legacyName: Option<string>,
    phones: Option<seq<string>>,
    birthday: Option<string>,
    email: Option<string>,
    address: Option<string>)

  /** Python truthiness of an optional string: present and non-empty. */
  predicate Truthy(s: Option<string>) {
    s.Some? && s.value != ""
  }

  /** `to_dict`. */
  function ToDict(r: Record): RecordDict {
    RecordDict(
      Some(r.name.value),
      None,
      Some(PhoneValues(r)),
      match r.birthday case Some(b) => Some(FormatBirthday(b)) case None => None,
      match r.email case Some(e) => Some(e.value) case None => None,
      match r.address case Some(a) => Some(a.value) case None => None)
  }

  /** The name `from_dict` picks: `"name"` when it is non-empty, else
      `"Name"`. */
  function DictName(d: RecordDict): string {
    if Truthy(d.name) then d.name.value else d.legacyName.GetOr("")
  }

  /** `from_dict`: a record with the dict's name and phones, and each
      optional field that is present and non-empty. */
  function FromDict(d: RecordDict): (res: Result<Record, Exc>)
    ensures res.Failure? <==> Truthy(d.birthday) && Dates.Parse(d.birthday.value).None?
    ensures res.Failure? ==> res.error == ValueError(BirthdayFormatError)
    ensures res.Success? ==>
              var r := res.value;
              && r.name.value == DictName(d)
              && PhoneValues(r) == d.phones.GetOr([])
              && (r.birthday.Some? <==> Truthy(d.birthday))
              && (r.birthday.Some? ==> FormatBirthday(r.birthday.value) == d.birthday.value)
              && (r.email.Some? <==> Truthy(d.email))
              && (r.email.Some? ==> r.email.value.value == d.email.value)
              && (r.address.Some? <==> Truthy(d.address))
              && (r.address.Some? ==> r.address.value.value == d.address.value)
  {
    var ps := d.phones.GetOr([]);
    var base := Record(Name(DictName(d)), seq(|ps|, i requires 0 <= i < |ps| => Phone(ps[i])), None, None, None);
    assert PhoneValues(base) == ps;
    var withBirthday :=
      if Truthy(d.birthday) then AddBirthday(base, d.birthday.value) else Success(base);
    match withBirthday
    case Failure(e) => Failure(e)
    case Success(r0) =>
      var r1 := if Truthy(d.email) then AddEmail(r0, d.email.value) else r0;
      var r2 := if Truthy(d.address) then AddAddress(r1, d.address.value) else r1;
      Success(r2)
  }

  /** What survives a `to_dict`/`from_dict` round trip: an email or address
      set to the empty string is falsy and reads back as unset. */
  function Canonical(r: Record): Record {
    r.(email := if r.email == Some(Email("")) then None else r.email,
       address := if r.address == Some(Address("")) then None else r.address)
  }

  /** Reading back a written record gives the name, the phones in order, the
      birthday, and every non-empty email and address. */
  lemma FromDictOfToDict(r: Record)
    ensures FromDict(ToDict(r)) == Success(Canonical(r))
  {
    var d := ToDict(r);
    var ps := PhoneValues(r);
    assert seq(|ps|, i requires 0 <= i < |ps| => Phone(ps[i])) == r.phones;
    if r.birthday.Some? {
      ParseOfFormatBirthday(r.birthday.value);
    }
  }
}

=== FILE: store.dfy ===
/** A Python `dict` with string keys, as the address book and the notebook
    use it: a sequence of (key, value) entries in insertion order with no key
    repeated. Assigning to an existing key replaces its value where it
    stands; assigning to a new key appends an entry; `del` removes the entry. */
module Store {
  import opened Wrappers

  type Entries<V> = seq<(string, V)>

  function Keys<V>(s: Entries<V>): seq<string> {
    seq(|s|, i requires 0 <= i < |s| => s[i].0)
  }

  function Values<V>(s: Entries<V>): seq<V> {
    seq(|s|, i requires 0 <= i < |s| => s[i].1)
  }

  function KeySet<V>(s: Entries<V>): set<string> {
    set i | 0 <= i < |s| :: s[i].0
  }

  /** The dict invariant: no key appears twice. */
  predicate UniqueKeys<V>(s: Entries<V>) {
    forall i, j :: 0 <= i < j < |s| ==> s[i].0 != s[j].0
  }

  /** Position of the first entry under `k`. */
  function IndexOf<V>(s: Entries<V>, k: string): (r: Option<nat>)
    ensures r.Some? ==> r.value < |s| && s[r.value].0 == k
                        && forall j :: 0 <= j < r.value ==> s[j].0 != k
    ensures r.None? ==> forall j :: 0 <= j < |s| ==> s[j].0 != k
    decreases |s|
  {
    if |s| == 0 then None
    else if s[0].0 == k then Some(0)
    else match IndexOf(s[1..], k)
      case None => None
      case Some(i) => Some(i + 1)
  }

  lemma IndexOfIsFirst<V>(s: Entries<V>, k: string, i: nat)
    requires i < |s| && s[i].0 == k
    requires forall j :: 0 <= j < i ==> s[j].0 != k
    ensures IndexOf(s, k) == Some(i)
  {
  }

  /** `d.get(k)`. */
  function Get<V>(s: Entries<V>, k: string): (r: Option<V>)
    ensures r.None? <==> k !in Keys(s)
    ensures r.Some? ==> exists i :: 0 <= i < |s| && s[i] == (k, r.value)
    ensures UniqueKeys(s) ==> forall i :: 0 <= i < |s| && s[i].0 == k ==> r == Some(s[i].1)
  {
    match IndexOf(s, k)
    case None =>
      assert forall j :: 0 <= j < |s| ==> Keys(s)[j] != k;
      None
    case Some(i) =>
      assert Keys(s)[i] == k;
      Some(s[i].1)
  }

  /** `d[k] = v`. */
  function Put<V>(s: Entries<V>, k: string, v: V): (r: Entries<V>)
    ensures Get(r, k) == Some(v)
    ensures forall k' :: k' != k ==> Get(r, k') == Get(s, k')
    ensures |r| >= |s|
    ensures forall j :: 0 <= j < |s| && s[j].0 != k ==> r[j] == s[j]
    ensures k in Keys(s) ==> Keys(r) == Keys(s)
    ensures k !in Keys(s) ==> Keys(r) == Keys(s) + [k]
    ensures UniqueKeys(s) ==> UniqueKeys(r)
  {
    match IndexOf(s, k)
    case Some(i) =>
      var r := s[i := (k, v)];
      assert Keys(r) == Keys(s);
      IndexOfIsFirst(r, k, i);
      PutKeepsOthers(s, r, k);
      r
    case None =>
      var r := s + [(k, v)];
      assert Keys(r) == Keys(s) + [k];
      IndexOfIsFirst(r, k, |s|);
      PutKeepsOthers(s, r, k);
      r
  }

  lemma PutKeepsOthers<V>(s: Entries<V>, r: Entries<V>, k: string)
    requires |s| <= |r|
    requires forall j :: 0 <= j < |s| ==> r[j].0 == s[j].0
    requires forall j :: |s| <= j < |r| ==> r[j].0 == k
    requires forall j :: 0 <= j < |s| && s[j].0 != k ==> r[j] == s[j]
    ensures forall k' :: k' != k ==> Get(r, k') == Get(s, k')
  {
    forall k' | k' != k
      ensures Get(r, k') == Get(s, k')
    {
      match IndexOf(s, k')
      case None =>
      case Some(j) => IndexOfIsFirst(r, k', j);
    }
  }

  /** `r` is `s` without its first entry under `k`: the entries before it
      stay where they are and the later ones move down by one, in order. */
  ghost predicate DropsFirst<V>(s: Entries<V>, k: string, r: Entries<V>) {
    exists i :: 0 <= i < |s| && s[i].0 == k && (forall j :: 0 <= j < i ==> s[j].0 != k)
                && r == s[..i] + s[i + 1..]
  }

  /** `del d[k]` when `k` is present; nothing when it is absent. */
  function Remove<V>(s: Entries<V>, k: string): (r: Entries<V>)
    ensures k !in Keys(s) ==> r == s
    ensures k in Keys(s) ==> |r| == |s| - 1 && DropsFirst(s, k, r)
    ensures UniqueKeys(s) ==> Get(r, k) == None
    ensures forall k' :: k' != k ==> Get(r, k') == Get(s, k')
    ensures UniqueKeys(s) ==> UniqueKeys(r)
  {
    match IndexOf(s, k)
    case None =>
      assert forall j :: 0 <= j < |s| ==> Keys(s)[j] != k;
      s
    case Some(i) =>
      var r := s[..i] + s[i + 1..];
      assert Keys(s)[i] == k;
      RemoveKeepsOthers(s, k, i);
      r
  }

  lemma RemoveKeepsOthers<V>(s: Entries<V>, k: string, i: nat)
    requires IndexOf(s, k) == Some(i)
    ensures var r := s[..i] + s[i + 1..];
            && (forall k' :: k' != k ==> Get(r, k') == Get(s, k'))
            && (UniqueKeys(s) ==> UniqueKeys(r) && Get(r, k) == None)
  {
    var r := s[..i] + s[i + 1..];
    forall k' | k' != k
      ensures Get(r, k') == Get(s, k')
    {
      RemoveKeepsKey(s, k, i, k');
    }
    if UniqueKeys(s) {
      assert forall j :: 0 <= j < |r| ==> r[j] == s[if j < i then j else j + 1];
      assert forall j :: 0 <= j < |r| ==> r[j].0 != k;
      assert k !in Keys(r);
    }
  }

  /** Removing the entry at `i` leaves the lookup of another key alone. */
  lemma RemoveKeepsKey<V>(s: Entries<V>, k: string, i: nat, k': string)
    requires IndexOf(s, k) == Some(i) && k' != k
    ensures Get(s[..i] + s[i + 1..], k') == Get(s, k')
  {
    var r := s[..i] + s[i + 1..];
    var found := IndexOf(s, k');
    if found.None? {
      RemoveKeepsAbsent(s, i, k');
    } else if found.value < i {
      RemoveKeepsEarlier(s, i, k', found.value);
    } else {
      RemoveShiftsFirst(s, i, k', found.value);
    }
  }

  lemma RemoveKeepsEarlier<V>(s: Entries<V>, i: nat, k': string, j: nat)
    requires j < i < |s| && s[j].0 == k'
    requires forall j' :: 0 <= j' < j ==> s[j'].0 != k'
    ensures var r := s[..i] + s[i + 1..];
            IndexOf(r, k') == Some(j) && r[j] == s[j]
  {
    var r := s[..i] + s[i + 1..];
    assert forall j' :: 0 <= j' <= j ==> r[j'] == s[j'];
    IndexOfIsFirst(r, k', j);
  }

  lemma RemoveKeepsAbsent<V>(s: Entries<V>, i: nat, k': string)
    requires i < |s| && IndexOf(s, k').None?
    ensures k' !in Keys(s[..i] + s[i + 1..])
  {
    var r := s[..i] + s[i + 1..];
    assert forall j :: 0 <= j < i ==> r[j] == s[j];
    assert forall j :: i <= j < |r| ==> r[j] == s[j + 1];
    assert forall j :: 0 <= j < |r| ==> Keys(r)[j] != k';
  }

  lemma RemoveShiftsFirst<V>(s: Entries<V>, i: nat, k': string, j: nat)
    requires i < j < |s| && s[j].0 == k'
    requires forall j' :: 0 <= j' < j ==> s[j'].0 != k'
    ensures var r := s[..i] + s[i + 1..];
            IndexOf(r, k') == Some(j - 1) && r[j - 1] == s[j]
  {
    var r := s[..i] + s[i + 1..];
    assert forall j' :: 0 <= j' < i ==> r[j'] == s[j'];
    assert forall j' :: i <= j' < |r| ==> r[j'] == s[j' + 1];
    IndexOfIsFirst(r, k', j - 1);
  }

  /** `{k: f(v) for k, v in d.items()}`. */
  function MapValues<V, W>(s: Entries<V>, f: V -> W): (r: Entries<W>)
    ensures |r| == |s| && Keys(r) == Keys(s)
    ensures forall i :: 0 <= i < |s| ==> r[i] == (s[i].0, f(s[i].1))
  {
    seq(|s|, i requires 0 <= i < |s| => (s[i].0, f(s[i].1)))
  }

  lemma GetOfMapValues<V, W>(s: Entries<V>, f: V -> W, k: string)
    ensures Get(MapValues(s, f), k) == match Get(s, k) case None => None case Some(v) => Some(f(v))
  {
    var r := MapValues(s, f);
    match IndexOf(s, k)
    case None =>
    case Some(i) => IndexOfIsFirst(r, k, i);
  }

  /** Positions, in increasing order, of the entries whose value satisfies
      `p`: the list comprehension `[v for v in d.values() if p(v)]`. */
  function SelectIndices<V>(s: Entries<V>, p: V -> bool): (r: seq<nat>)
    ensures forall n :: 0 <= n < |r| ==> r[n] < |s| && p(s[r[n]].1)
    ensures forall n, m :: 0 <= n < m < |r| ==> r[n] < r[m]
    ensures forall i :: 0 <= i < |s| && p(s[i].1) ==> i in r
    decreases |s|
  {
    if |s| == 0 then []
    else
      var init := s[..|s| - 1];
      var rest := SelectIndices(init, p);
      assert forall n :: 0 <= n < |rest| ==> s[rest[n]] == init[rest[n]];
      if p(s[|s| - 1].1) then rest + [|s| - 1] else rest
  }

  function Select<V>(s: Entries<V>, p: V -> bool): seq<V> {
    var idx := SelectIndices(s, p);
    seq(|idx|, n requires 0 <= n < |idx| => s[idx[n]].1)
  }

  /** Selecting over one more entry adds that entry's value at the end
      exactly when it satisfies `p`. */
  lemma SelectStep<V>(s: Entries<V>, p: V -> bool)
    requires |s| > 0
    ensures Select(s, p) == Select(s[..|s| - 1], p) + (if p(s[|s| - 1].1) then [s[|s| - 1].1] else [])
  {
    var init := s[..|s| - 1];
    var a := SelectIndices(init, p);
    assert forall n :: 0 <= n < |a| ==> s[a[n]] == init[a[n]];
  }

  /** One item of a dict comprehension: whether the item is kept, and the
      key and value it contributes. */
  datatype Item<W> = Item(keep: bool, key: string, val: W)

  /** Key `k` of `r` holds the value of a kept item with that key after
      which no kept item has the same key. */
  ghost predicate Explained<W>(items: seq<Item<W>>, r: Entries<W>, k: string) {
    exists i :: 0 <= i < |items| && items[i].keep && items[i].key == k
                && Get(r, k) == Some(items[i].val)
                && forall j :: i < j < |items| && items[j].keep ==> items[j].key != k
  }

  /** `r` is the dict `{it.key: it.val for it in items if it.keep}`: every
      kept key is present, and each key holds the value of the last kept
      item with that key. */
  ghost predicate Collects<W>(items: seq<Item<W>>, r: Entries<W>) {
    && UniqueKeys(r)
    && (forall i :: 0 <= i < |items| && items[i].keep ==> items[i].key in Keys(r))
    && (forall k :: k in Keys(r) ==> Explained(items, r, k))
  }

  /** The dict built by assigning the kept items in order, so that a later
      value replaces an earlier one of the same key. */
  function Collect<W>(items: seq<Item<W>>): (r: Entries<W>)
    ensures Collects(items, r)
    decreases |items|
  {
    if |items| == 0 then []
    else
      var init := items[..|items| - 1];
      var rest := Collect(init);
      var it := items[|items| - 1];
      var r := if it.keep then Put(rest, it.key, it.val) else rest;
      CollectStep(init, it, rest, r);
      assert items == init + [it];
      r
  }

  lemma CollectStep<W>(init: seq<Item<W>>, it: Item<W>, rest: Entries<W>, r: Entries<W>)
    requires Collects(init, rest)
    requires r == if it.keep then Put(rest, it.key, it.val) else rest
    ensures Collects(init + [it], r)
  {
    forall k | k in Keys(r)
      ensures Explained(init + [it], r, k)
    {
      CollectStepKey(init, it, rest, r, k);
    }
  }

  /** One key of the extended dict, explained by its last kept item. */
  lemma CollectStepKey<W>(init: seq<Item<W>>, it: Item<W>, rest: Entries<W>, r: Entries<W>, k: string)
    requires k in Keys(rest) ==> Explained(init, rest, k)
    requires r == if it.keep then Put(rest, it.key, it.val) else rest
    requires k in Keys(r)
    ensures Explained(init + [it], r, k)
  {
    var items := init + [it];
    var n := |init|;
    assert items[n] == it;
    if it.keep && k == it.key {
      assert items[n].keep && items[n].key == k && Get(r, k) == Some(items[n].val);
    } else {
      assert Get(r, k) == Get(rest, k);
      assert k in Keys(rest);
      var i :| 0 <= i < n && init[i].keep && init[i].key == k
               && Get(rest, k) == Some(init[i].val)
               && forall j :: i < j < n && init[j].keep ==> init[j].key != k;
      assert items[i] == init[i];
      assert forall j :: i < j < n ==> items[j] == init[j];
      assert forall j :: i < j < |items| && items[j].keep ==> items[j].key != k;
    }
  }

  /** There are never fewer entries than distinct keys, and with no
      repeated key there are exactly as many (`len(d) == len(d.keys())`). */
  lemma {:induction false} CountIsKeyCount<V>(s: Entries<V>)
    ensures |KeySet(s)| <= |s|
    ensures UniqueKeys(s) ==> |KeySet(s)| == |s|
    decreases |s|
  {
    if |s| > 0 {
      var init := s[..|s| - 1];
      CountIsKeyCount(init);
      assert KeySet(s) == KeySet(init) + {s[|s| - 1].0};
      if UniqueKeys(s) {
        assert UniqueKeys(init);
        assert s[|s| - 1].0 !in KeySet(init);
      }
    }
  }
}

=== FILE: text.dfy ===
/** ASCII models of the Python `str` operations the assistant relies on:
    `isspace`, `isdigit`, `lower`, `in`, `join`, `strip`, `split()`, `int()`
    and left-aligned padding in a format spec. Non-ASCII characters are
    treated as ordinary, non-space, non-digit, uncased characters. */
module Text {
  import opened Wrappers

  /** The ASCII characters for which Python's `str.isspace` holds. */
  predicate IsSpace(c: char) {
    c == ' ' || c == '\t' || c == '\n' || c == '\r' || c == '\U{B}' || c == '\U{C}'
    || ('\U{1C}' <= c <= '\U{1F}')
  }

  predicate NoSpace(s: string) {
    forall k :: 0 <= k < |s| ==> !IsSpace(s[k])
  }

  predicate AllSpace(s: string) {
    forall k :: 0 <= k < |s| ==> IsSpace(s[k])
  }

  predicate IsDigit(c: char) {
    '0' <= c <= '9'
  }

  predicate AllDigits(s: string) {
    forall k :: 0 <= k < |s| ==> IsDigit(s[k])
  }

  // ---- Case ----

  function LowerChar(c: char): char {
    if 'A' <= c <= 'Z' then (c as int + 32) as char else c
  }

  /** `str.lower` over ASCII. */
  function Lower(s: string): string {
    seq(|s|, i requires 0 <= i < |s| => LowerChar(s[i]))
  }

  lemma LowerIdempotent(s: string)
    ensures Lower(Lower(s)) == Lower(s)
  {
    var l := Lower(s);
    assert forall i :: 0 <= i < |l| ==> LowerChar(l[i]) == l[i];
  }

  // ---- Substrings ----

  predicate StartsWith(s: string, prefix: string) {
    |prefix| <= |s| && s[..|prefix|] == prefix
  }

  /** Python's `needle in hay`, searched position by position. */
  predicate Contains(hay: string, needle: string)
    decreases |hay|
  {
    StartsWith(hay, needle) || (|hay| > 0 && Contains(hay[1..], needle))
  }

  /** `needle` occurs in `hay` starting at position `i`. */
  predicate OccursAt(hay: string, needle: string, i: int) {
    0 <= i <= |hay| - |needle| && hay[i..i + |needle|] == needle
  }

  /** The search finds exactly the positions where `needle` occurs. */
  lemma ContainsIffOccurs(hay: string, needle: string)
    ensures Contains(hay, needle) <==> exists i :: OccursAt(hay, needle, i)
  {
    if Contains(hay, needle) {
      var i := ContainsAt(hay, needle);
    }
    forall i | OccursAt(hay, needle, i)
      ensures Contains(hay, needle)
    {
      OccursContains(hay, needle, i);
    }
  }

  /** A position where a found `needle` occurs. */
  lemma {:induction false} ContainsAt(hay: string, needle: string) returns (i: nat)
    requires Contains(hay, needle)
    ensures OccursAt(hay, needle, i)
    decreases |hay|
  {
    if StartsWith(hay, needle) {
      i := 0;
    } else {
      var j := ContainsAt(hay[1..], needle);
      assert hay[j + 1..j + 1 + |needle|] == hay[1..][j..j + |needle|];
      i := j + 1;
    }
  }

  /** An occurrence anywhere is found. */
  lemma {:induction false} OccursContains(hay: string, needle: string, i: int)
    requires OccursAt(hay, needle, i)
    ensures Contains(hay, needle)
    decreases i
  {
    if i != 0 {
      var tail := hay[1..];
      assert tail[i - 1..i - 1 + |needle|] == hay[i..i + |needle|];
      OccursContains(tail, needle, i - 1);
    }
  }

  // ---- Join ----

  /** `sep.join(parts)`. */
  function Join(parts: seq<string>, sep: string): string
    decreases |parts|
  {
    if |parts| == 0 then ""
    else if |parts| == 1 then parts[0]
    else parts[0] + sep + Join(parts[1..], sep)
  }

  /** Joining two non-empty lists is joining each and putting one more
      separator between them. */
  lemma {:induction false} JoinAppend(a: seq<string>, b: seq<string>, sep: string)
    requires |a| > 0 && |b| > 0
    ensures Join(a + b, sep) == Join(a, sep) + sep + Join(b, sep)
    decreases |a|
  {
    if |a| == 1 {
      assert (a + b)[1..] == b;
    } else {
      assert (a + b)[1..] == a[1..] + b;
      JoinAppend(a[1..], b, sep);
    }
  }

  // ---- Strip ----

  function TrimLeft(s: string): (r: string)
    ensures |r| <= |s| && r == s[|s| - |r|..]
    ensures AllSpace(s[..|s| - |r|])
    ensures |r| > 0 ==> !IsSpace(r[0])
    decreases |s|
  {
    if |s| > 0 && IsSpace(s[0]) then TrimLeft(s[1..]) else s
  }

  function TrimRight(s: string): (r: string)
    ensures |r| <= |s| && r == s[..|r|]
    ensures AllSpace(s[|r|..])
    ensures |r| > 0 ==> !IsSpace(r[|r| - 1])
    decreases |s|
  {
    if |s| > 0 && IsSpace(s[|s| - 1]) then TrimRight(s[..|s| - 1]) else s
  }

  /** `str.strip()`: the part of `s` between its leading and trailing
      whitespace. */
  function Strip(s: string): (r: string)
    ensures |r| > 0 ==> !IsSpace(r[0]) && !IsSpace(r[|r| - 1])
    ensures r == "" <==> AllSpace(s)
  {
    StripEmptyIff(s);
    TrimRight(TrimLeft(s))
  }

  /** The stripped text is the slice of `s` left once the whitespace at
      both ends is cut off. */
  lemma StripIsSlice(s: string)
    ensures exists i, j :: 0 <= i <= j <= |s| && Strip(s) == s[i..j] && AllSpace(s[..i]) && AllSpace(s[j..])
  {
    var l := TrimLeft(s);
    var r := TrimRight(l);
    var i := |s| - |l|;
    var j := i + |r|;
    assert s[i..j] == l[..|r|];
    assert s[j..] == l[|r|..];
  }

  lemma StripEmptyIff(s: string)
    ensures TrimRight(TrimLeft(s)) == "" <==> AllSpace(s)
  {
    var t := TrimLeft(s);
    var i := |s| - |t|;
    if TrimRight(t) == "" {
      assert t == "";
      assert s == s[..i];
    }
  }

  lemma StripNoSpaceEnds(s: string)
    requires |s| > 0 && !IsSpace(s[0]) && !IsSpace(s[|s| - 1])
    ensures Strip(s) == s
  {
  }

  // ---- split() ----

  /** Length of the run of non-space characters at the start of `s`. */
  function WordLength(s: string): (n: nat)
    ensures n <= |s|
    ensures NoSpace(s[..n])
    ensures n < |s| ==> IsSpace(s[n])
    decreases |s|
  {
    if |s| == 0 || IsSpace(s[0]) then 0 else 1 + WordLength(s[1..])
  }

  /** `str.split()` with no separator: the maximal runs of non-space
      characters, in order. */
  function Words(s: string): (ws: seq<string>)
    ensures forall k :: 0 <= k < |ws| ==> |ws[k]| > 0 && NoSpace(ws[k])
    decreases |s|
  {
    if |s| == 0 then []
    else if IsSpace(s[0]) then Words(s[1..])
    else
      var n := WordLength(s);
      [s[..n]] + Words(s[n..])
  }

  lemma {:induction false} WordLengthOfWord(w: string, tail: string)
    requires NoSpace(w)
    requires |tail| == 0 || IsSpace(tail[0])
    ensures WordLength(w + tail) == |w|
    decreases |w|
  {
    if |w| > 0 {
      assert (w + tail)[1..] == w[1..] + tail;
      WordLengthOfWord(w[1..], tail);
    } else {
      assert w + tail == tail;
    }
  }

  /** Joining words with single spaces and splitting again gives the words
      back. */
  lemma {:induction false} WordsOfJoin(ts: seq<string>)
    requires forall k :: 0 <= k < |ts| ==> |ts[k]| > 0 && NoSpace(ts[k])
    ensures Words(Join(ts, " ")) == ts
    decreases |ts|
  {
    if |ts| == 0 {
    } else if |ts| == 1 {
      var t := ts[0];
      WordLengthOfWord(t, "");
      assert t + "" == t;
      assert t[|t|..] == "";
    } else {
      var t := ts[0];
      var rest := Join(ts[1..], " ");
      var s := t + " " + rest;
      assert s == t + (" " + rest);
      WordLengthOfWord(t, " " + rest);
      assert s[..|t|] == t;
      assert s[|t|..] == " " + rest;
      assert (" " + rest)[1..] == rest;
      WordsOfJoin(ts[1..]);
    }
  }

  lemma {:induction false} WordsSkipsLeadingSpace(ws: string, s: string)
    requires AllSpace(ws)
    ensures Words(ws + s) == Words(s)
    decreases |ws|
  {
    if |ws| > 0 {
      assert (ws + s)[1..] == ws[1..] + s;
      WordsSkipsLeadingSpace(ws[1..], s);
    } else {
      assert ws + s == s;
    }
  }

  lemma {:induction false} WordLengthAppendSpace(s: string, ws: string)
    requires AllSpace(ws)
    ensures WordLength(s + ws) == WordLength(s)
    decreases |s|
  {
    if |s| == 0 {
      assert s + ws == ws;
    } else if !IsSpace(s[0]) {
      assert (s + ws)[1..] == s[1..] + ws;
      WordLengthAppendSpace(s[1..], ws);
    }
  }

  lemma {:induction false} WordsIgnoresTrailingSpace(s: string, ws: string)
    requires AllSpace(ws)
    ensures Words(s + ws) == Words(s)
    decreases |s|
  {
    if |s| == 0 {
      assert s + ws == ws + "";
      WordsSkipsLeadingSpace(ws, "");
    } else if IsSpace(s[0]) {
      assert (s + ws)[1..] == s[1..] + ws;
      WordsIgnoresTrailingSpace(s[1..], ws);
    } else {
      var n := WordLength(s);
      WordLengthAppendSpace(s, ws);
      assert (s + ws)[..n] == s[..n];
      assert (s + ws)[n..] == s[n..] + ws;
      WordsIgnoresTrailingSpace(s[n..], ws);
    }
  }

  lemma WordsOfTrimLeft(s: string)
    ensures Words(TrimLeft(s)) == Words(s)
  {
    var t := TrimLeft(s);
    var lead := s[..|s| - |t|];
    assert s == lead + t;
    WordsSkipsLeadingSpace(lead, t);
  }

  lemma WordsOfTrimRight(t: string)
    ensures Words(TrimRight(t)) == Words(t)
  {
    var r := TrimRight(t);
    var trail := t[|r|..];
    assert t == r + trail;
    WordsIgnoresTrailingSpace(r, trail);
  }

  /** Splitting the stripped text gives the same words as splitting the
      text itself. */
  lemma WordsOfStrip(s: string)
    ensures Words(Strip(s)) == Words(s)
  {
    WordsOfTrimLeft(s);
    WordsOfTrimRight(TrimLeft(s));
  }

  /** `split()` finds no word exactly when the text is all whitespace. */
  lemma {:induction false} WordsEmptyIff(s: string)
    ensures Words(s) == [] <==> AllSpace(s)
    decreases |s|
  {
    if |s| > 0 && IsSpace(s[0]) {
      WordsEmptyIff(s[1..]);
      if AllSpace(s[1..]) {
        assert forall k :: 1 <= k < |s| ==> s[k] == s[1..][k - 1];
      }
    }
  }

  // ---- Digits and numbers ----

  function DigitValue(c: char): nat
    requires IsDigit(c)
  {
    c as int - '0' as int
  }

  function DigitChar(d: nat): (c: char)
    requires d < 10
    ensures IsDigit(c) && DigitValue(c) == d
  {
    ('0' as int + d) as char
  }

  /** The number written by a run of decimal digits. */
  function DigitsValue(s: string): nat
    requires AllDigits(s)
    decreases |s|
  {
    if |s| == 0 then 0 else 10 * DigitsValue(s[..|s| - 1]) + DigitValue(s[|s| - 1])
  }

  function Pow10(n: nat): (p: nat)
    ensures p >= 1
  {
    if n == 0 then 1 else 10 * Pow10(n - 1)
  }

  /** `n` written in exactly `w` digits, zero-padded on the left (the low
      `w` digits when `n` is wider). */
  function FixedDigits(n: nat, w: nat): (r: string)
    ensures |r| == w && AllDigits(r)
  {
    if w == 0 then "" else FixedDigits(n / 10, w - 1) + [DigitChar(n % 10)]
  }

  lemma {:induction false} ValueOfFixedDigits(n: nat, w: nat)
    requires n < Pow10(w)
    ensures DigitsValue(FixedDigits(n, w)) == n
  {
    if w > 0 {
      var r := FixedDigits(n, w);
      assert r[..|r| - 1] == FixedDigits(n / 10, w - 1);
      ValueOfFixedDigits(n / 10, w - 1);
    }
  }

  lemma {:induction false} FixedDigitsOfValue(s: string)
    requires AllDigits(s)
    ensures DigitsValue(s) < Pow10(|s|)
    ensures FixedDigits(DigitsValue(s), |s|) == s
    decreases |s|
  {
    if |s| > 0 {
      var init := s[..|s| - 1];
      FixedDigitsOfValue(init);
      var v := DigitsValue(s);
      assert v / 10 == DigitsValue(init);
      assert v % 10 == DigitValue(s[|s| - 1]);
      assert s == init + [s[|s| - 1]];
    }
  }

  /** `str(n)` for a natural number: its shortest decimal digits. */
  function NatToString(n: nat): (r: string)
    ensures |r| > 0 && AllDigits(r)
    ensures DigitsValue(r) == n
    ensures |r| > 1 ==> r[0] != '0'
  {
    if n < 10 then [DigitChar(n)]
    else
      var r := NatToString(n / 10) + [DigitChar(n % 10)];
      assert r[..|r| - 1] == NatToString(n / 10);
      r
  }

  /** A base-10 integer literal as `int()` reads it: an optional sign, then
      one or more digits (leading zeros allowed). */
  predicate IsIntLiteral(t: string) {
    || (|t| > 0 && AllDigits(t))
    || (|t| > 1 && (t[0] == '-' || t[0] == '+') && AllDigits(t[1..]))
  }

  /** Python's `int(s)` for base 10: optional surrounding whitespace, an
      optional sign, then one or more digits. */
  function ParseInt(s: string): (r: Option<int>)
    ensures r.Some? <==> IsIntLiteral(Strip(s))
    ensures r.Some? && AllDigits(Strip(s)) ==> r.value == DigitsValue(Strip(s))
    ensures r.Some? && Strip(s)[0] == '+' ==> r.value == DigitsValue(Strip(s)[1..])
    ensures r.Some? && Strip(s)[0] == '-' ==> r.value == 0 - DigitsValue(Strip(s)[1..])
  {
    var t := Strip(s);
    if |t| > 0 && (t[0] == '-' || t[0] == '+') then
      var body := t[1..];
      if |body| > 0 && AllDigits(body) then
        var v: int := DigitsValue(body);
        Some(if t[0] == '-' then -v else v)
      else None
    else if |t| > 0 && AllDigits(t) then Some(DigitsValue(t))
    else None
  }

  /** Leading zeros do not change the value of a numeral. */
  lemma {:induction false} LeadingZeroValue(s: string)
    requires AllDigits(s)
    ensures AllDigits("0" + s) && DigitsValue("0" + s) == DigitsValue(s)
    decreases |s|
  {
    if |s| > 0 {
      var init := s[..|s| - 1];
      LeadingZeroValue(init);
      assert ("0" + s)[..|s|] == "0" + init;
    }
  }

  /** A non-digit anywhere in the stripped text, other than a leading
      sign, makes `int()` fail: `int("abc")` and `int("1.5")` raise. */
  lemma ParseIntRejectsNonDigit(s: string, k: nat)
    requires k < |Strip(s)| && !IsDigit(Strip(s)[k])
    requires k == 0 ==> Strip(s)[0] != '-' && Strip(s)[0] != '+'
    ensures ParseInt(s).None?
  {
    var t := Strip(s);
    if k > 0 {
      assert t[1..][k - 1] == t[k];
    }
  }

  /** `int(str(n))` and `int("-" + str(n))` give the number back. */
  lemma ParseIntOfNatToString(n: nat)
    ensures ParseInt(NatToString(n)) == Some(n)
    ensures ParseInt("-" + NatToString(n)) == Some(0 - n as int)
  {
    var d := NatToString(n);
    StripNoSpaceEnds(d);
    var m := "-" + d;
    StripNoSpaceEnds(m);
    assert m[1..] == d;
  }

  // ---- Padding ----

  function Repeat(c: char, n: nat): (r: string)
    ensures |r| == n && forall k :: 0 <= k < n ==> r[k] == c
  {
    seq(n, _ => c)
  }

  /** The `fill<width` format spec: `s` left-aligned and right-padded with
      `fill` up to `width`; a longer `s` is not truncated. */
  function PadRight(s: string, width: nat, fill: char): (r: string)
    ensures |r| == if |s| >= width then |s| else width
    ensures r[..|s|] == s
    ensures forall k :: |s| <= k < |r| ==> r[k] == fill
  {
    if |s| >= width then s else s + Repeat(fill, width - |s|)
  }
}

=== FILE: validators.dfy ===
/** The second set of command-line helpers, `assistant/validators/fields.py`:
    another error decorator and a quote-aware command parser. `shlex.split`
    is not modelled; it is the parameter `tokenize`, which yields `None`
    where `shlex` raises `ValueError` (an unbalanced quote, say). */
module Validators {
  import opened Wrappers
  import opened Errors
  import opened Text
  import Core

  /** `input_error`: the text shown for an exception a handler raised. */
  function ErrorText(e: Exc): string {
    match e
    case ValueError(msg) => msg
    case KeyError(_) => "Contact not found."
    case IndexError => "Invalid command format."
    case OtherError(text) => "Error: " + text
  }

  /** A handler wrapped by this module's `input_error`, the second of the
      repository's two decorators: unlike `Core.InputError` it prefixes
      other errors with "Error: " (`DecoratorsAgree` relates the two). */
  function InputError(r: Result<string, Exc>): (s: string)
    ensures r.Success? ==> s == r.value
    ensures r.Failure? && r.error.ValueError? ==> s == r.error.msg
    ensures r.Failure? && r.error.KeyError? ==> s == "Contact not found."
    ensures r.Failure? && r.error.IndexError? ==> s == "Invalid command format."
    ensures r.Failure? && r.error.OtherError? ==> s == "Error: " + r.error.text
  {
    match r
    case Success(v) => v
    case Failure(e) => ErrorText(e)
  }

  /** The two decorators give the same text except for an `IndexError` and
      for an unexpected exception. */
  lemma DecoratorsAgree(r: Result<string, Exc>)
    ensures (r.Success? || r.error.ValueError? || r.error.KeyError?)
            <==> InputError(r) == Core.InputError(r)
  {
    if r.Failure? && r.error.IndexError? {
      assert |InputError(r)| != |Core.InputError(r)|;
    }
    if r.Failure? && r.error.OtherError? {
      assert InputError(r)[..1] == "E" && Core.InputError(r)[..1] == "A";
    }
  }

  /** `parse_input`: blank input is the empty command; otherwise the
      stripped text is tokenised (falling back to `split()` when `shlex`
      gives up) and the first token, lowered, is the command. */
  function ParseInput(userInput: string, tokenize: string -> Option<seq<string>>)
    : (r: Result<(string, seq<string>), Exc>)
    ensures AllSpace(userInput) ==> r == Success(("", []))
    ensures r.Failure? ==> r.error == IndexError
    ensures !AllSpace(userInput) ==>
              var parts := match tokenize(Strip(userInput))
                           case Some(ps) => ps
                           case None => Words(userInput);
              && (r.Failure? <==> parts == [])
              && (r.Success? ==> r.value == (Lower(parts[0]), parts[1..]))
  {
    if userInput == "" || Strip(userInput) == "" then Success(("", []))
    else
      var text := Strip(userInput);
      WordsOfStrip(userInput);
      var parts := match tokenize(text)
                   case Some(ps) => ps
                   case None => Words(text);
      if |parts| == 0 then Failure(IndexError)
      else Success((Lower(parts[0]), parts[1..]))
  }

  /** When `shlex` gives up, this parser and the one in `core` split the
      line the same way. */
  lemma FallbackAgreesWithCore(userInput: string, tokenize: string -> Option<seq<string>>)
    requires !AllSpace(userInput)
    requires tokenize(Strip(userInput)).None?
    ensures Core.ParseInput(userInput).Success?
    ensures var c := Core.ParseInput(userInput).value;
            ParseInput(userInput, tokenize) == Success((c[0], c[1..]))
  {
    WordsEmptyIff(userInput);
  }
}

=== FILE: wrappers.dfy ===
/** Option and Result: the model's stand-ins for Python's `None` and for a
    call that either returns or raises. */
module Wrappers {

  datatype Option<+T> = None | Some(value: T) {

    /** The wrapped value, or `default` when there is none. */
    function GetOr(default: T): T {
      match this
      case Some(v) => v
      case None => default
    }
  }

  /** The outcome of a call that returns `value` or raises `error`. */
  datatype Result<+R, +E> = Success(value: R) | Failure(error: E)
}

/** The Python exception kinds that the command layer distinguishes. */
module Errors {

  datatype Exc =
    | ValueError(msg: string)
    | KeyError(key: string)
    | IndexError
      /** Any other exception, carried with its `str()` text. */
    | OtherError(text: string)
}
